=== FILE: README.md ===
# Emergency desktop plugin and run-as core, modelled in Dafny

This project models a Process Hacker plugin. Its keyboard hook watches for
Ctrl+Alt+Shift+P. When the hotkey fires, the hook makes sure a configured
"emergency" desktop exists and relaunches Process Hacker on that desktop
as SYSTEM. The relaunch goes through Process Hacker's run-as machinery:

- a cached run-as service is reused while it still answers;
- otherwise a freshly named service is created, started and deleted,
  either directly through the service control manager or through the
  elevated phsvc server;
- the phsvc connection is shared through a reference count;
- once phsvc or a new run-as service has been started, connecting to it is
  retried up to ten times; the first connect to phsvc and the connect to a
  cached service are tried once;
- the window station and desktop are opened up with a permissive DACL;
- the service turns the request into one process-creation call.

Every call into the operating system is an entry of a trace (`OsCalls.OsCall`).
What the system answers is a parameter, an "oracle". So each operation is a
pure function from the state, the request and the oracle to a result, a new
state and the trace of calls in order. The properties are stated on those
traces and states.

Modules, one per part of the program:

| module | file | what it holds |
|---|---|---|
| `Win` | win.dfy | NTSTATUS, Win32 errors, SIDs, ACEs |
| `PhStrings` | ph_strings.dfy | character search, substring search, split at a character, occurrence counting |
| `OsCalls` | os_calls.dfy | the trace alphabet |
| `DesktopAccess` | desktop_access.dfy | PhSetDesktopWinStaAccess |
| `PhSvc` | phsvc.dfy | PhUiConnectToPhSvc and PhUiDisconnectFromPhSvc, and the bounded connect retry |
| `RunAsService` | runas_service.dfy | PhpSplitUserName and PhInvokeRunAsService |
| `RunAs` | runas.dfy | PhExecuteRunAsCommand and PhExecuteRunAsCommand2 |
| `EmergencyDesktop` | emergency_desktop.dfy | the desktop setting, the `--EmergencySwitch` command line, DesktopExists, the options-dialog desktop menu |
| `Hotkey` | hotkey.dfy | LowLevelKeyboardProc, and runs of it over event sequences |

The model keeps these behaviours of the code:

- **Guard on create failure.** The hook's `Switching` guard is NOT cleared when CreateDesktop fails (main.c:298-305). After one failure the hotkey never fires again (`Hotkey.StuckGuardSuppresses`).
- **No key-down test on the trigger.** The trigger key is not tested for key-down (main.c:279). The lower-case `'p'` it also accepts is virtual-key 0x70, VK_F1 (`Hotkey.TriggerIgnoresMessage`).
- **Fixed hardening targets.** The hardening step changes the fixed objects `WinSta0` and `Default` (phf/runas.c:373-392). It does not touch the emergency desktop.
- **Run-as status dropped.** The hook ignores the status run-as returns (main.c:308). It shows no message for a run-as failure.
- **Stale last error.** `DesktopExists` reads the thread's last error even when OpenDesktop returned a handle (main.c:238-243). A stale ERROR_FILE_NOT_FOUND makes it report the desktop absent and leak the handle (`EmergencyDesktop.StaleErrorLeaksHandle`).
- **Unchecked separator.** The start-up parse skips one character after `--EmergencySwitch` without checking that it is a space (main.c:55).

## Model

| member | source | states |
|---|---|---|
| Win.StatusFromWin32 | phf/runas.c:276-284 | The NTSTATUS built from a Win32 error is a success exactly when the error is 0. An error from 1 to 0x7FFFFFFF becomes the pattern 0xC007xxxx: error severity, the Win32 facility and the error's low 16 bits, so never STATUS_CANCELLED. An error with the top bit set passes through unchanged. |
| PhStrings.SplitAtCharOfJoin | phf/runas.c:409-413 | Splitting `a + [c] + b` at `c`, when `a` does not hold `c`, gives back `a` and `b`. |
| DesktopAccess.DaclEntries | phf/runas.c:352-369 | The DACL starts with GENERIC_ALL for Everyone. It holds GENERIC_ALL for ALL APPLICATION PACKAGES exactly when the version is Windows 8 or later. It holds two entries from Windows 8 on and one before. Every entry grants GENERIC_ALL, and the ACL fits the allocation. |
| DesktopAccess.SetDesktopWinStaAccess | phf/runas.c:373-392 | The window station is always opened first and only once. Every call is an open, close or set-security call. Only WinSta0 and Default are changed, always to the DACL above. Each is changed exactly when it could be opened. |
| DesktopAccess.HardeningEffect | phf/runas.c:373-392 | Replaying the hardening trace on a map of DACLs replaces each object's DACL exactly when that object was opened, and leaves every other entry alone. |
| DesktopAccess.HardeningIdempotent | phf/runas.c:373-392 | Hardening twice is the same as hardening once. No object other than WinSta0 and Default gains, loses or changes a DACL. |
| PhSvc.Retry | phf/runas.c:294-307 | The connect loop makes between one and ten calls. All calls before the last failed. The outcome is the last call's status. It is a success, or ten calls were made. |
| PhSvc.RetrySucceedsIff | phf/runas.c:180-194 | The loop ends in success exactly when one of the first ten attempts would succeed. |
| PhSvc.RetryCallsCount | phf/runas.c:294-307 | The loop's trace holds exactly one connect per attempt, all to the same port. It holds nothing but connects and delays. |
| PhSvc.RetryFromFirstSuccess | phf/runas.c:298-307 | The loop stops at the first successful attempt, or at the tenth when all fail. |
| PhSvc.ConnectWithRetry | phf/runas.c:294-307 | The do/while loop over a counter from ten returns the status and call trace of `Retry`. |
| PhSvc.UiConnect | phf/runas.c:131-213 | Success is exactly a raised reference count; failure leaves the state unchanged. A non-zero count only increments. From zero, a successful first connect gives a count of one. From zero with a failed first connect, it succeeds exactly when elevation is allowed and accepted, even if every retry fails. The elevation prompt for phsvc is issued exactly when the first connect failed and `ConnectOnly` is false; phsvc starts only if the user accepts it. The trace is exact on every path: after a failed first connect, `ConnectOnly` leaves it at that one connect. A declined elevation adds only the prompt. An accepted one adds the prompt and then the calls of the bounded retry, which stops at the first success. At most eleven connects are made. |
| PhSvc.UiDisconnect | phf/runas.c:218-230 | The count drops by one. The server is disconnected exactly once when the count reaches zero, and otherwise not at all. |
| PhSvc.ConnectThenDisconnect | phf/runas.c:199-207 | A successful connect followed by its disconnect restores the count. The pair does real I/O at both ends exactly when the count was zero. |
| PhSvc.NestedUseIsFree | phf/runas.c:203-207 | While the count is non-zero, a connect and its disconnect make no call at all and restore the count. |
| RunAs.ServicePortNameInjective | phf/runas.c:292 | Two service names give the same port name exactly when they are the same name, so a port a client connects to belongs to one service. |
| RunAs.ExecuteRunAsCommand | phf/runas.c:239-321 | If the service manager cannot be opened, the status is its last error as an NTSTATUS and no other call is made. If the service cannot be created, the status is that last error. Otherwise the status is the invoke status when the retry connected, and the retry's failing status when it did not. |
| RunAs.LauncherCreateFails | phf/runas.c:254-285 | When CreateService fails, nothing is hardened, started, deleted, connected to or invoked. |
| RunAs.LauncherConnectsToService | phf/runas.c:287-315 | Once the service exists, the launcher connects once per retry attempt, and only to the service's own port. It invokes the service exactly when a connect succeeded. |
| RunAs.LauncherOrdering | phf/runas.c:287-290 | The window station is opened once, then the service is started once, then deleted once, in that order. |
| RunAs.LauncherCreatesBeforeHardening | phf/runas.c:254-290 | Once the service is created, the service manager is opened, then the service created, then the manager closed, then the window station opened for hardening, then the service started, then deleted. |
| RunAs.LauncherConnectsAfterDelete | phf/runas.c:287-320 | Once the service is created, every connect to any port comes after the delete, and the trace ends by closing the service's handle. |
| RunAs.LauncherInvokesLast | phf/runas.c:296-320 | When the service is invoked, that happens after every connect. Only the disconnect and the close of the service's handle follow it. |
| RunAs.FreshServiceName | phf/runas.c:95-99 | A fresh name is the 13-character `ProcessHacker` prefix followed by the generated characters. It fits the 32-character buffer. |
| RunAs.ExecuteRunAsCommand2 | phf/runas.c:39-121 | A cached name whose port answers is reused: the service is invoked and disconnected, its status is returned, and the state is unchanged. A cached name is always tried first. Otherwise the fresh name is cached, whatever the outcome. When elevated, the status is the launcher's, and the trace is the cached-port connect (when a name was cached) followed by the launcher's own calls. When not elevated, the trace is the cached-port connect, then phsvc's connect calls, then, if phsvc connected, the execute request and the disconnect's calls. When not elevated and phsvc connected, phsvc runs the command and its status is returned. When phsvc connected, the server is disconnected exactly when the count was zero before, and the count after is computed from the connect and the disconnect. When phsvc did not connect, the status is STATUS_CANCELLED, nothing is run, and the count is the failed connect's. Either way the phsvc count is the same after as before. |
| RunAs.CacheIsSticky | phf/runas.c:70-99 | After any call a name is cached, so the next call tries that service first. The name is replaced only when its service did not answer. |
| RunAs.RunAsMakesNoHookCall | phf/runas.c:39-121 | Run-as never creates a desktop, shows a message, sleeps or calls the next hook. |
| RunAsService.SplitUserName | phf/runas.c:397-419 | A name holding a backslash splits at its first backslash into a domain without backslashes and a user, which join back to the name. A name without one is a user with no domain. |
| RunAsService.SplitQualifiedUserName | phf/runas.c:409-413 | Splitting `domain\user` recovers the domain and the user exactly, whatever backslashes the user part holds. |
| RunAsService.CreateProcessRequest | phf/runas.c:430-461 | The session-id flag is always set. The process-token flag is set exactly when a token-source process is given. The linked-token flag is set exactly when it is requested. A domain is passed exactly when the requested user name contains a backslash. It has no backslash itself, and the domain and user join back to the requested user name, so the name is split at its first backslash. Every other field is copied unchanged. |
| RunAsService.LogonRequest | phf/runas.c:430-461 | A request for `domain\user` with no token-source process and no linked token becomes a logon as that domain and user. Only the session-id flag is set, and every other field is the request's. |
| EmergencyDesktop.DesktopName | main.c:292-294 | A setting without a backslash is its own desktop name. Otherwise the setting is the text before its first backslash, a backslash, and the desktop name. |
| EmergencyDesktop.DesktopNameOfQualified | main.c:292-294 | A window station and a desktop joined by a backslash give back the desktop, whatever backslashes it holds. |
| EmergencyDesktop.DefaultDesktopIsEmergency | main.c:33 | The default setting `WinSTA0\Emergency` names the desktop `Emergency`. |
| EmergencyDesktop.ParseSwitchArgument | main.c:42-57 | There is no switch exactly when `--EmergencySwitch` occurs nowhere in the command line. A desktop found is the suffix of the line that starts one character after the FIRST occurrence of the switch. The result is "past the end" exactly when the switch occurs and every occurrence, the first included, is too near the end. |
| EmergencyDesktop.ParseAfterAnySeparator | main.c:55 | Whatever character follows the switch is skipped, and the desktop is the text after it. |
| EmergencyDesktop.SwitchRoundTrip | main.c:295 | Parsing the command line the hotkey builds gives back exactly the desktop it named. |
| EmergencyDesktop.SwitchWithoutDesktop | main.c:55-57 | The switch alone leaves the index one past the end of the line. |
| EmergencyDesktop.DesktopExists | main.c:237-244 | The desktop counts as existing exactly when the last error is not ERROR_FILE_NOT_FOUND. OpenDesktop is always the first call and is made once. The handle is closed exactly when the desktop counts as existing and a handle was returned, and nothing else is called. |
| EmergencyDesktop.ProbeLeaksHandleIff | main.c:237-244 | A returned handle is left open exactly when the last error reads ERROR_FILE_NOT_FOUND. There is never more than one close, and never more closes than opens. The answer does not depend on whether a handle came back. |
| EmergencyDesktop.StaleErrorLeaksHandle | main.c:238-243 | A handle returned while ERROR_FILE_NOT_FOUND is still the last error is reported absent and never closed. |
| EmergencyDesktop.QualifiedDesktops | main.c:106-118 | There is one entry per enumerated desktop, in order, each prefixed with `WinSTA0\`. |
| EmergencyDesktop.BuildDesktopMenu | main.c:153-169 | The menu starts with the enumerated entries in order. It gains the default emergency entry exactly when the test held for no entry. |
| EmergencyDesktop.AsWrittenMenuHidesEmergency | main.c:160 | With the comparison used as a truth value, enumerating only `Default` leaves the emergency entry out of the menu. |
| EmergencyDesktop.IntendedMenuOffersEmergency | main.c:153-169 | With equality as the test, the menu always offers an entry equal to the emergency desktop. The default one is added exactly when no enumerated desktop equals it. |
| Hotkey.UpdateModifiers | main.c:259-277 | A Control, Alt or Shift key, left or right, sets that modifier's flag to whether the message was a key-down. Any other key leaves every flag unchanged. The guard is not touched. |
| Hotkey.OnKeyEvent | main.c:246-320 | Other hook codes change nothing and fire nothing. The hook fires exactly when all three modifiers are held, the key is P or VK_F1, and no switch is in progress. It asks run-as for the switch request exactly when it fired and the desktop exists or could be created. For HC_ACTION, the Ctrl, Alt and Shift flags afterwards are the ones `UpdateModifiers` gives. The guard stays set afterwards exactly when it was set before, or the desktop could not be created. After a run-as request, the run-as state (cached service name and phsvc count) is the one that run-as leaves; without one it is unchanged. The phsvc count is never changed. |
| Hotkey.StepPassesEvent | main.c:256-257 | Every hook call ends by calling the next hook. A call that does not fire makes no other call. |
| Hotkey.StepProbesFirst | main.c:297 | A switch starts by probing the configured desktop. |
| Hotkey.StepCreatesOnlyAbsentDesktop | main.c:297-306 | The configured desktop is created exactly when a switch finds it absent. |
| Hotkey.StepReportsCreateFailure | main.c:297-305 | The error message is shown exactly when a switch fired but could not create the desktop. The step then ends with the create, the message and the hand-off to the next hook. |
| Hotkey.StepSleepsAfterRelaunch | main.c:308-315 | The hook sleeps exactly when it relaunched. |
| Hotkey.RelaunchTargetsSetting | main.c:283-308 | The relaunched instance parses back the desktop the setting names. Run-as is asked to start the module as `NT AUTHORITY\SYSTEM` with an empty password and a service logon, in the hook's session, on the setting's desktop, with no token-source process and without the linked token. |
| Hotkey.RelaunchLogsOnAsSystem | phf/runas.c:421-469 | Whatever service carries it, the process-creation call for a relaunch logs on as domain `NT AUTHORITY`, user `SYSTEM`, with an empty password and a service logon. It runs the module with the switch command line, in the hook's session, on the setting's desktop, with no working directory. Only the session-id flag is set: no other process's token and no linked token. |
| Hotkey.TriggerIgnoresMessage | main.c:279 | With the modifiers held and no switch in progress, any message for P or VK_F1 fires, releases included. |
| Hotkey.StuckGuardSuppresses | main.c:297-305 | Once a switch failed to create its desktop, no later event fires or reaches run-as. |
| Hotkey.RunKeepsPhSvcCount | phf/runas.c:109-113 | After any sequence of hook calls, the phsvc reference count is what it was before. |
| Hotkey.ReleasedModifierBlocks | main.c:259-279 | Once any one of Control, Alt or Shift is released, no sequence of events fires the switch or reaches run-as until a key of that modifier is pressed again. |
| Hotkey.RunPassesEveryEvent | main.c:318-319 | A run makes at least one call per event and ends by passing on the last event. |
| Hotkey.StepHandsOnOnce | main.c:255-319 | Every hook call, on every path, hands its event to the next hook exactly once. |
| Hotkey.RunHandsOnEachEvent | main.c:318-319 | Over any run, the hand-offs to the next hook are exactly one per event, in the order the events came. |

## Left out

- **OS calls become trace entries.** Every operating-system call is a trace entry, and its own behaviour is not part of this model. The model reads a result from an oracle parameter only where the code reads it: OpenSCManager, CreateService, the port connects and calls, the window-station and desktop opens, CreateDesktop, the elevation prompt and process creation.
- **Ignored results.** The code ignores the results of StartService, DeleteService, PhSetObjectSecurity (phf/runas.c:379, 390), CloseServiceHandle, CloseWindowStation and CloseDesktop. These calls have no oracle, and the model treats each one as done.
- **Locks, interlocked operations and threads.** `RunAsOldServiceLock`, `PhSvcStartLock`, the interlocked reference count and the hook thread are out. Each locked region is modelled as one atomic step, and no interleaving of callers is modelled.
- **Timing.** The delay between connect attempts and the 2-second settle sleep appear only as trace entries.
- **Random generation.** The contents of the generated service-name characters are left unspecified: any string of at most 16 characters. The generator's own output rules (letters only, the terminator) are not modelled.
- **Security-descriptor bytes.** The security descriptor and ACL memory layout are reduced to the list of ACEs and a length count.
- **PH_STRING lengths.** main.c:57 and main.c:294 pass a byte length where a character count is expected. The model takes the intended suffix. It does not model the longer copy, nor the stray characters that copy could read.
- **GetModuleFileName truncation.** MAX_PATH truncation is not modelled: the module path is a parameter.
- **Registration, hook thread and unload.** Plugin and callback registration (main.c:16-26, 36, 46-51, 61-66), the hook thread and the wait for it (main.c:68-83, 212-224), the options callback (main.c:92-104) and unload (main.c:226-235) are out.
- **Dialog plumbing.** In the options dialog, the menu display, the selection and saving the setting (main.c:120-204) are out. Only the menu's contents are modelled.
- **DllMain's effect.** The desktop DllMain creates, switches to and closes at start-up is out. Only the parse of its name is modelled.
- **phsvc server.** phsvc itself (the port server, the elevated PhExecuteRunAsCommand it runs for PhSvcCallExecuteRunAsCommand) is not part of this model. The client sees only its status.
- **Win32 error conversion.** PhGetLastWin32ErrorAsNtStatus (phf/runas.c:255) is not part of this model. It is taken to convert the last error as NTSTATUS_FROM_WIN32 does.
- PhSvc.UiDisconnect: requires a positive reference count. The source decrements without a guard (phf/runas.c:224), so an unbalanced disconnect would wrap the count to 0xFFFFFFFF without disconnecting. Every caller in the core pairs it with a successful connect.
- DesktopAccess.HardeningEffect: treats every SetObjectSecurity in the trace as taking effect. The code discards its status (phf/runas.c:379, 390), so a failed DACL write is not modelled.
- PhSvc.ConnectWithRetry: its contract ties the method to `Retry` and `RetryCalls`. The connect-count and call-kind bounds are stated once, by `PhSvc.RetryCallsCount` and `PhSvc.Retry`, not repeated on the method.
- RunAs.ExecuteRunAsCommand: its contract states the status. The trace facts are stated by separate lemmas:
  - `RunAs.LauncherCreateFails`: the early exit;
  - `RunAs.LauncherCreatesBeforeHardening`, `RunAs.LauncherOrdering`, `RunAs.LauncherConnectsAfterDelete` and `RunAs.LauncherInvokesLast`: the order of the steps;
  - `RunAs.LauncherConnectsToService`: the connects.

## Findings

| source | as written | input that shows it | evidently intended | confidence | as-written member | corrected member |
|---|---|---|---|---|---|---|
| main.c:160 | `if (PhCompareString2(item, L"WinSTA0\\Emergency", TRUE))` sets `emergencyExists` when the three-way comparison is non-zero, that is, when the entry DIFFERS from the emergency desktop | the window station enumerates only `Default`: the entry `WinSTA0\Default` differs, so the emergency entry is never added | set `emergencyExists` when the comparison is zero (`== 0`), so the emergency entry is added exactly when no enumerated desktop equals it | not executed | EmergencyDesktop.AsWrittenMenuHidesEmergency | EmergencyDesktop.IntendedMenuOffersEmergency |

The desktop menu is `EmergencyDesktop.DesktopMenu` with the test as a parameter. `EmergencyDesktop.BuildDesktopMenu` is the loop, proved equal to it for any test. `AsWrittenTest` is the test as written; `IntendedTest` is the corrected one.

=== FILE: desktop_access.dfy ===
/** PhSetDesktopWinStaAccess (phf/runas.c:327-395): builds an allow-all DACL
    and applies it, best effort, to the fixed window station "WinSta0" and
    the fixed desktop "Default", whatever desktop the caller will use. */
module DesktopAccess {
  import opened Win
  import opened OsCalls

  /** phlib's version number for Windows 8 (WINDOWS_8). */
  const Windows8: nat := 62

  /** sizeof(ACL) and sizeof(ACCESS_ALLOWED_ACE); the latter ends in a
      four-byte SidStart placeholder that the SID itself replaces. */
  const AclHeaderSize: nat := 8
  const AccessAllowedAceSize: nat := 12

  /** The DACL part of the allocation: one ACL header and room for one
      ACE for Everyone and one for ALL APPLICATION PACKAGES. */
  const DaclCapacity: nat :=
    AclHeaderSize
    + AccessAllowedAceSize + SidLength(Everyone)
    + AccessAllowedAceSize + SidLength(AllAppPackages)

  /** Bytes an access-allowed ACE takes inside an ACL. */
  function AceLength(ace: Ace): nat {
    AccessAllowedAceSize - 4 + SidLength(ace.sid)
  }

  /** Bytes an ACL holding `aces` takes. */
  function AclLength(aces: seq<Ace>): nat {
    if |aces| == 0 then AclHeaderSize
    else AclLength(aces[..|aces| - 1]) + AceLength(aces[|aces| - 1])
  }

  /** The entries of the DACL: GENERIC_ALL for Everyone, and GENERIC_ALL for
      ALL APPLICATION PACKAGES from Windows 8 on; the allocation holds them. */
  function DaclEntries(windowsVersion: nat): (aces: seq<Ace>)
    ensures |aces| == if windowsVersion >= Windows8 then 2 else 1
    ensures aces[0] == AccessAllowed(GenericAll, Everyone)
    ensures AccessAllowed(GenericAll, AllAppPackages) in aces <==> windowsVersion >= Windows8
    ensures forall i :: 0 <= i < |aces| ==> aces[i].mask == GenericAll
    ensures AclLength(aces) <= DaclCapacity
  {
    var everyone := [AccessAllowed(GenericAll, Everyone)];
    if windowsVersion >= Windows8 then
      var both := everyone + [AccessAllowed(GenericAll, AllAppPackages)];
      assert both[..1] == everyone;
      both
    else everyone
  }

  const HardenedWindowStation := "WinSta0"
  const HardenedDesktop := "Default"

  /** The environment's answers: the Windows version, and whether each of
      the two objects could be opened with the rights the code asks for. */
  datatype HardenOracle = HardenOracle(windowsVersion: nat, windowStationOpened: bool, desktopOpened: bool)

  /** The calls the hardening step can make. */
  predicate IsHardeningCall(c: OsCall) {
    c.OpenWindowStation? || c.CloseWindowStation? || c.OpenDesktop? || c.CloseDesktop? || c.SetObjectSecurity?
  }

  /** PhSetDesktopWinStaAccess. An object that fails to open is skipped
      without any report; only the two fixed objects are ever changed. */
  function SetDesktopWinStaAccess(o: HardenOracle): (calls: seq<OsCall>)
    ensures |calls| > 0 && calls[0] == OpenWindowStation(HardenedWindowStation)
    ensures forall i :: 0 < i < |calls| ==> !calls[i].OpenWindowStation?
    ensures forall c :: c in calls ==> IsHardeningCall(c)
    ensures forall c :: c in calls && c.SetObjectSecurity? ==>
              c.dacl == DaclEntries(o.windowsVersion)
              && (c.target == WindowStation(HardenedWindowStation) || c.target == Desktop(HardenedDesktop))
    ensures SetObjectSecurity(WindowStation(HardenedWindowStation), DaclEntries(o.windowsVersion)) in calls
            <==> o.windowStationOpened
    ensures SetObjectSecurity(Desktop(HardenedDesktop), DaclEntries(o.windowsVersion)) in calls
            <==> o.desktopOpened
  {
    var dacl := DaclEntries(o.windowsVersion);
    var openStation := OpenWindowStation(HardenedWindowStation);
    var setStation := SetObjectSecurity(WindowStation(HardenedWindowStation), dacl);
    var openDesktop := OpenDesktop(HardenedDesktop);
    var setDesktop := SetObjectSecurity(Desktop(HardenedDesktop), dacl);
    match (o.windowStationOpened, o.desktopOpened)
    case (true, true) => [openStation, setStation, CloseWindowStation, openDesktop, setDesktop, CloseDesktop]
    case (true, false) => [openStation, setStation, CloseWindowStation, openDesktop]
    case (false, true) => [openStation, openDesktop, setDesktop, CloseDesktop]
    case (false, false) => [openStation, openDesktop]
  }

  /** The hardening opens the window station first and never again. */
  lemma HardeningRest(o: HardenOracle) returns (rest: seq<OsCall>)
    ensures SetDesktopWinStaAccess(o) == [OpenWindowStation(HardenedWindowStation)] + rest
    ensures forall c :: c in rest ==> IsHardeningCall(c) && !c.OpenWindowStation?
  {
    var calls := SetDesktopWinStaAccess(o);
    rest := calls[1..];
    assert calls == [calls[0]] + rest;
    forall c | c in rest
      ensures IsHardeningCall(c) && !c.OpenWindowStation?
    {
      var i :| 0 <= i < |rest| && rest[i] == c;
      assert c == calls[i + 1];
    }
  }

  /** The DACL each object carries. */
  type AccessMap = map<SecuredObject, seq<Ace>>

  /** The effect of one call on the objects' DACLs: SetObjectSecurity
      replaces its target's DACL; every other call leaves them alone. */
  function ApplyCall(m: AccessMap, c: OsCall): AccessMap {
    if c.SetObjectSecurity? then m[c.target := c.dacl] else m
  }

  /** The effect of a whole trace, call by call. */
  function ApplySecurity(m: AccessMap, calls: seq<OsCall>): AccessMap
    decreases |calls|
  {
    if |calls| == 0 then m else ApplySecurity(ApplyCall(m, calls[0]), calls[1..])
  }

  /** The DACLs the hardening leaves: the window station's and the
      desktop's replaced when each could be opened, all others untouched. */
  function Hardened(m: AccessMap, o: HardenOracle): AccessMap {
    var dacl := DaclEntries(o.windowsVersion);
    var m1 := if o.windowStationOpened then m[WindowStation(HardenedWindowStation) := dacl] else m;
    if o.desktopOpened then m1[Desktop(HardenedDesktop) := dacl] else m1
  }

  /** Replaying the hardening trace changes the DACLs exactly as Hardened says. */
  lemma {:induction false} HardeningEffect(m: AccessMap, o: HardenOracle)
    ensures ApplySecurity(m, SetDesktopWinStaAccess(o)) == Hardened(m, o)
  {
    var dacl := DaclEntries(o.windowsVersion);
    var openStation := OpenWindowStation(HardenedWindowStation);
    var setStation := SetObjectSecurity(WindowStation(HardenedWindowStation), dacl);
    var openDesktop := OpenDesktop(HardenedDesktop);
    var setDesktop := SetObjectSecurity(Desktop(HardenedDesktop), dacl);
    var desktopPart := if o.desktopOpened then [openDesktop, setDesktop, CloseDesktop] else [openDesktop];
    var stationPart := if o.windowStationOpened then [openStation, setStation, CloseWindowStation] else [openStation];
    var m1 := if o.windowStationOpened then m[WindowStation(HardenedWindowStation) := dacl] else m;
    assert SetDesktopWinStaAccess(o) == stationPart + desktopPart;
    ApplySecurityAppend(m, stationPart, desktopPart);
    ApplyUpToThree(m, stationPart);
    ApplyUpToThree(m1, desktopPart);
  }

  /** Replaying the calls of a trace one after the other. */
  lemma {:induction false} ApplySecurityAppend(m: AccessMap, a: seq<OsCall>, b: seq<OsCall>)
    ensures ApplySecurity(m, a + b) == ApplySecurity(ApplySecurity(m, a), b)
    decreases |a|
  {
    if |a| == 0 {
      assert a + b == b;
    } else {
      assert (a + b)[0] == a[0];
      assert (a + b)[1..] == a[1..] + b;
      ApplySecurityAppend(ApplyCall(m, a[0]), a[1..], b);
    }
  }

  /** Replaying a trace of one or three calls. */
  lemma ApplyUpToThree(m: AccessMap, calls: seq<OsCall>)
    requires |calls| == 1 || |calls| == 3
    ensures |calls| == 1 ==> ApplySecurity(m, calls) == ApplyCall(m, calls[0])
    ensures |calls| == 3 ==>
              ApplySecurity(m, calls) == ApplyCall(ApplyCall(ApplyCall(m, calls[0]), calls[1]), calls[2])
  {
    if |calls| == 3 {
      var m1 := ApplyCall(m, calls[0]);
      var m2 := ApplyCall(m1, calls[1]);
      assert ApplySecurity(m, calls) == ApplySecurity(m1, calls[1..]);
      assert calls[1..][0] == calls[1];
      assert ApplySecurity(m1, calls[1..]) == ApplySecurity(m2, calls[1..][1..]);
      assert calls[1..][1..][0] == calls[2];
      assert calls[1..][1..][1..] == [];
      assert ApplySecurity(m2, calls[1..][1..]) == ApplySecurity(ApplyCall(m2, calls[2]), []);
    } else {
      assert calls[1..] == [];
    }
  }

  /** Hardening is idempotent, and it touches no object other than the
      fixed window station and desktop: applying its trace a second time,
      with the same answers from the system, changes nothing more. */
  lemma {:induction false} HardeningIdempotent(m: AccessMap, o: HardenOracle)
    ensures var once := ApplySecurity(m, SetDesktopWinStaAccess(o));
            && ApplySecurity(once, SetDesktopWinStaAccess(o)) == once
            && forall x :: x != WindowStation(HardenedWindowStation) && x != Desktop(HardenedDesktop) ==>
                 (x in once <==> x in m) && (x in m ==> once[x] == m[x])
  {
    HardeningEffect(m, o);
    HardeningEffect(Hardened(m, o), o);
  }
}

=== FILE: emergency_desktop.dfy ===
/** The plugin's desktop handling in main.c: the desktop setting, the
    command line that relaunches Process Hacker on the emergency desktop
    and its parsing at start-up, the existence test, and the desktop menu
    of the options dialog. */
module EmergencyDesktop {
  import opened Win
  import opened PhStrings
  import opened OsCalls

  /** The window station every menu entry is qualified with. */
  const WindowStationPrefix := "WinSTA0\\"

  /** The default of the desktop setting, and the entry the menu adds. */
  const DefaultDesktopSetting := "WinSTA0\\Emergency"

  /** The switch that tells a new instance which desktop to switch to. */
  const SwitchFlag := "--EmergencySwitch"

  /** The desktop a setting names: what follows its first backslash, or the
      whole setting when it has none (the search then yields -1, and -1 + 1
      is 0). */
  function DesktopName(setting: string): (name: string)
    ensures '\\' !in setting ==> name == setting
    ensures '\\' in setting ==>
              var k := IndexOf(setting, '\\');
              && '\\' !in setting[..k]
              && setting == setting[..k] + "\\" + name
  {
    var index := IndexOf(setting, '\\') + 1;
    assert index > 0 ==> setting == setting[..index - 1] + "\\" + setting[index..];
    setting[index..]
  }

  /** A window station and a desktop joined by a backslash give back the
      desktop, whatever backslashes the desktop part holds. */
  lemma {:induction false} DesktopNameOfQualified(station: string, desktop: string)
    requires '\\' !in station
    ensures DesktopName(station + "\\" + desktop) == desktop
  {
    var s := station + "\\" + desktop;
    assert s[..|station|] == station;
    IndexOfUnique(s, '\\', |station|);
    assert s[|station| + 1..] == desktop;
  }

  /** The default setting names the desktop "Emergency". */
  lemma DefaultDesktopIsEmergency()
    ensures DesktopName(DefaultDesktopSetting) == "Emergency"
  {
    assert DefaultDesktopSetting == "WinSTA0" + "\\" + "Emergency";
    DesktopNameOfQualified("WinSTA0", "Emergency");
  }

  /** The command line the relaunched instance receives: the switch, a
      space, and the desktop name. */
  function SwitchCommandLine(desktop: string): string {
    SwitchFlag + " " + desktop
  }

  /** What the start-up code makes of its command line: no switch, the
      desktop after it, or an index beyond the end of the line. */
  datatype SwitchArgument = NoSwitch | SwitchTo(desktop: string) | PastEnd

  /** The start-up parse: find the first occurrence of the switch, skip its
      seventeen characters and one more (taken to be the space, but not
      checked), and take the rest of the line. The index lies past the end
      exactly when even the first occurrence, and so every one, is too
      near the end of the line. */
  function ParseSwitchArgument(cmdLine: string): (r: SwitchArgument)
    ensures r.NoSwitch? <==> forall k: nat :: !OccursAt(cmdLine, SwitchFlag, k)
    ensures r.SwitchTo? ==>
              && |SwitchFlag| + 1 + |r.desktop| <= |cmdLine|
              && cmdLine[|cmdLine| - |r.desktop|..] == r.desktop
              && OccursAt(cmdLine, SwitchFlag, |cmdLine| - |r.desktop| - |SwitchFlag| - 1)
              && forall k: nat :: k < |cmdLine| - |r.desktop| - |SwitchFlag| - 1 ==> !OccursAt(cmdLine, SwitchFlag, k)
    ensures r.PastEnd? <==>
              && (exists k: nat :: OccursAt(cmdLine, SwitchFlag, k))
              && forall k: nat :: OccursAt(cmdLine, SwitchFlag, k) ==> |cmdLine| < k + |SwitchFlag| + 1
  {
    var k := FindString(cmdLine, SwitchFlag);
    if k == -1 then NoSwitch
    else
      var index := k + |SwitchFlag| + 1;
      if index <= |cmdLine| then
        assert |cmdLine| - |cmdLine[index..]| == index;
        SwitchTo(cmdLine[index..])
      else PastEnd
  }

  /** Whatever character follows the switch is skipped: the desktop is the
      text after it. */
  lemma {:induction false} ParseAfterAnySeparator(separator: char, desktop: string)
    ensures ParseSwitchArgument(SwitchFlag + [separator] + desktop) == SwitchTo(desktop)
  {
    var s := SwitchFlag + [separator] + desktop;
    assert s[0..|SwitchFlag|] == SwitchFlag;
    assert OccursAt(s, SwitchFlag, 0);
    assert FindString(s, SwitchFlag) == 0;
    assert s[|SwitchFlag| + 1..] == desktop;
  }

  /** The relaunch round trip: the new instance switches to exactly the
      desktop the hotkey named. */
  lemma SwitchRoundTrip(desktop: string)
    ensures ParseSwitchArgument(SwitchCommandLine(desktop)) == SwitchTo(desktop)
  {
    assert SwitchCommandLine(desktop) == SwitchFlag + [' '] + desktop;
    ParseAfterAnySeparator(' ', desktop);
  }

  /** The switch alone leaves the index one past the end of the line. */
  lemma SwitchWithoutDesktop()
    ensures ParseSwitchArgument(SwitchFlag) == PastEnd
  {
    assert OccursAt(SwitchFlag, SwitchFlag, 0);
    assert FindString(SwitchFlag, SwitchFlag) == 0;
  }

  /** What OpenDesktop leaves behind: whether it returned a handle, and the
      thread's last error afterwards, which the call need not have set. */
  datatype OpenDesktopOutcome = OpenDesktopOutcome(handleReturned: bool, lastError: Win32Error)

  /** DesktopExists: only ERROR_FILE_NOT_FOUND counts as absence; a handle is
      closed when one was returned and the error was not that. */
  function DesktopExists(name: string, o: OpenDesktopOutcome): (r: (bool, seq<OsCall>))
    ensures r.0 <==> o.lastError != ErrorFileNotFound
    ensures |r.1| > 0 && r.1[0] == OpenDesktop(name)
    ensures CloseDesktop in r.1 <==> r.0 && o.handleReturned
    ensures forall c :: c in r.1 ==> c == OpenDesktop(name) || c == CloseDesktop
    ensures |r.1| == (if r.0 && o.handleReturned then 2 else 1)
  {
    if o.lastError == ErrorFileNotFound then (false, [OpenDesktop(name)])
    else if o.handleReturned then (true, [OpenDesktop(name), CloseDesktop])
    else (true, [OpenDesktop(name)])
  }

  /** A handle the test obtains is leaked when a stale "file not found" is
      still the last error: the desktop is reported absent and not closed. */
  lemma StaleErrorLeaksHandle(name: string)
    ensures var r := DesktopExists(name, OpenDesktopOutcome(true, ErrorFileNotFound));
            !r.0 && CloseDesktop !in r.1
  {
  }

  /** Handle accounting of the probe: a returned handle is left open exactly
      when the last error reads ERROR_FILE_NOT_FOUND, and the probe's answer
      depends on that error alone, not on whether a handle came back. */
  lemma ProbeLeaksHandleIff(name: string, o: OpenDesktopOutcome)
    ensures var r := DesktopExists(name, o);
            o.handleReturned && Count(r.1, CloseDesktop) == 0 <==> o.handleReturned && o.lastError == ErrorFileNotFound
    ensures Count(DesktopExists(name, o).1, CloseDesktop) <= Count(DesktopExists(name, o).1, OpenDesktop(name)) == 1
    ensures DesktopExists(name, o).0 == DesktopExists(name, o.(handleReturned := !o.handleReturned)).0
  {
    var r := DesktopExists(name, o);
    CountAbsent(r.1, CloseDesktop);
    var open := [OpenDesktop(name)];
    assert open[..0] == [];
    assert Count(open, OpenDesktop(name)) == 1 && Count(open, CloseDesktop) == 0;
    if |r.1| == 2 {
      assert r.1[..|r.1| - 1] == open;
    } else {
      assert r.1 == open;
    }
  }

  /** The menu entries for the enumerated desktops: each name qualified
      with the window station, in enumeration order. */
  function QualifiedDesktops(names: seq<string>): (items: seq<string>)
    ensures |items| == |names|
    ensures forall i :: 0 <= i < |names| ==> items[i] == WindowStationPrefix + names[i]
  {
    if |names| == 0 then [] else QualifiedDesktops(names[..|names| - 1]) + [WindowStationPrefix + names[|names| - 1]]
  }

  /** The desktop menu: the enumerated entries in order, followed by the
      default emergency entry when the test `isEmergency` held for none. */
  function DesktopMenu(items: seq<string>, isEmergency: string -> bool): seq<string> {
    items + (if forall i :: 0 <= i < |items| ==> !isEmergency(items[i]) then [DefaultDesktopSetting] else [])
  }

  /** The menu-building loop of the options dialog, with the test of its
      `if` as a parameter. */
  method BuildDesktopMenu(items: seq<string>, isEmergency: string -> bool) returns (menu: seq<string>)
    ensures menu == DesktopMenu(items, isEmergency)
    ensures menu[..|items|] == items
    ensures |menu| == |items| + 1 <==> forall i :: 0 <= i < |items| ==> !isEmergency(items[i])
  {
    var emergencyExists := false;
    menu := [];
    var i := 0;
    while i < |items|
      invariant 0 <= i <= |items|
      invariant menu == items[..i]
      invariant emergencyExists <==> exists j :: 0 <= j < i && isEmergency(items[j])
    {
      menu := menu + [items[i]];
      if isEmergency(items[i]) {
        emergencyExists := true;
      }
      i := i + 1;
    }
    assert menu == items;
    if !emergencyExists {
      menu := menu + [DefaultDesktopSetting];
    }
  }

  /** The test as written: the result of the three-way string comparison is
      used as a truth value, so it holds for every entry that DIFFERS from
      the emergency desktop. */
  function AsWrittenTest(compare: (string, string) -> int): string -> bool {
    x => compare(x, DefaultDesktopSetting) != 0
  }

  /** The test as intended: the entry compares equal to the emergency desktop. */
  function IntendedTest(compare: (string, string) -> int): string -> bool {
    x => compare(x, DefaultDesktopSetting) == 0
  }

  /** As written, the emergency entry is added only when every enumerated
      desktop is the emergency one: the default desktop alone hides it. */
  lemma AsWrittenMenuHidesEmergency(compare: (string, string) -> int)
    requires compare(WindowStationPrefix + "Default", DefaultDesktopSetting) != 0
    ensures DefaultDesktopSetting !in DesktopMenu(QualifiedDesktops(["Default"]), AsWrittenTest(compare))
  {
    var items := QualifiedDesktops(["Default"]);
    assert items == [WindowStationPrefix + "Default"];
    assert AsWrittenTest(compare)(items[0]);
    assert |WindowStationPrefix + "Default"| != |DefaultDesktopSetting|;
  }

  /** As intended, the menu always offers an entry that compares equal to
      the emergency desktop, and adds the default one exactly when no
      enumerated desktop does. */
  lemma IntendedMenuOffersEmergency(items: seq<string>, compare: (string, string) -> int)
    requires compare(DefaultDesktopSetting, DefaultDesktopSetting) == 0
    ensures var menu := DesktopMenu(items, IntendedTest(compare));
            && (exists k :: 0 <= k < |menu| && compare(menu[k], DefaultDesktopSetting) == 0)
            && (|menu| == |items| + 1 <==> forall i :: 0 <= i < |items| ==> compare(items[i], DefaultDesktopSetting) != 0)
  {
    var menu := DesktopMenu(items, IntendedTest(compare));
    if forall i :: 0 <= i < |items| ==> compare(items[i], DefaultDesktopSetting) != 0 {
      assert menu[|items|] == DefaultDesktopSetting;
    } else {
      var i :| 0 <= i < |items| && compare(items[i], DefaultDesktopSetting) == 0;
      assert menu[i] == items[i];
    }
  }
}

=== FILE: hotkey.dfy ===
/** The low-level keyboard hook of main.c (LowLevelKeyboardProc): it tracks
    whether Ctrl, Alt and Shift are held and, on Ctrl+Alt+Shift+P, makes
    sure the emergency desktop exists and relaunches Process Hacker on it
    as SYSTEM through run-as. Every event is passed on to the next hook. */
module Hotkey {
  import opened Win
  import opened OsCalls
  import opened RunAs
  import opened EmergencyDesktop
  import opened RunAsService
  import opened PhStrings

  /** HC_ACTION, the only hook code the procedure acts on. */
  const HcAction: int := 0

  /** WM_KEYDOWN and WM_SYSKEYDOWN, the two messages that count as "held". */
  const WmKeyDown: Ulong := 0x100
  const WmSysKeyDown: Ulong := 0x104

  /** The generic, left and right virtual-key codes of the three modifiers. */
  const VkShift: Ulong := 0x10
  const VkControl: Ulong := 0x11
  const VkMenu: Ulong := 0x12
  const VkLShift: Ulong := 0xA0
  const VkRShift: Ulong := 0xA1
  const VkLControl: Ulong := 0xA2
  const VkRControl: Ulong := 0xA3
  const VkLMenu: Ulong := 0xA4
  const VkRMenu: Ulong := 0xA5

  /** The two key codes the trigger compares with: 'P' (0x50) and 'p'
      (0x70). Virtual-key codes have no lower case: 0x70 is VK_F1. */
  const VkP: Ulong := 0x50
  const VkF1: Ulong := 0x70

  /** LOGON32_LOGON_SERVICE. */
  const LogonService: Ulong := 5

  /** The account the relaunched instance runs as. */
  const SystemDomain := "NT AUTHORITY"
  const SystemUser := "SYSTEM"
  const SystemAccount := SystemDomain + "\\" + SystemUser

  /** How long the hook waits after a relaunch before it re-arms. */
  const SwitchDelayMilliseconds: nat := 2000

  /** CtrlEnabled, ShiftEnabled, AltEnabled and Switching; all start false. */
  datatype HotkeyState = HotkeyState(ctrlEnabled: bool, shiftEnabled: bool, altEnabled: bool, switching: bool)

  /** One call of the hook: its code, the message, and the key's code. */
  datatype KeyEvent = KeyEvent(nCode: int, message: Ulong, vkCode: Ulong)

  predicate IsKeyDown(message: Ulong) {
    message == WmKeyDown || message == WmSysKeyDown
  }

  predicate IsControlKey(vk: Ulong) { vk == VkControl || vk == VkLControl || vk == VkRControl }
  predicate IsAltKey(vk: Ulong) { vk == VkMenu || vk == VkRMenu || vk == VkLMenu }
  predicate IsShiftKey(vk: Ulong) { vk == VkShift || vk == VkLShift || vk == VkRShift }

  predicate IsTriggerKey(vk: Ulong) {
    vk == VkP || vk == VkF1
  }

  /** All three modifiers are held. */
  predicate AllHeld(h: HotkeyState) {
    h.ctrlEnabled && h.altEnabled && h.shiftEnabled
  }

  /** The modifier switch: a key of one of the three modifiers sets that
      modifier's flag to whether the message was a key-down, so left and
      right keys share one flag; any other key changes no flag. */
  function UpdateModifiers(h: HotkeyState, e: KeyEvent): (h2: HotkeyState)
    ensures h2.switching == h.switching
    ensures h2.ctrlEnabled == (if IsControlKey(e.vkCode) then IsKeyDown(e.message) else h.ctrlEnabled)
    ensures h2.altEnabled == (if IsAltKey(e.vkCode) then IsKeyDown(e.message) else h.altEnabled)
    ensures h2.shiftEnabled == (if IsShiftKey(e.vkCode) then IsKeyDown(e.message) else h.shiftEnabled)
  {
    var enabled := IsKeyDown(e.message);
    if IsControlKey(e.vkCode) then h.(ctrlEnabled := enabled)
    else if IsAltKey(e.vkCode) then h.(altEnabled := enabled)
    else if IsShiftKey(e.vkCode) then h.(shiftEnabled := enabled)
    else h
  }

  /** The process state the hook touches: its own flags and run-as's. */
  datatype System = System(hotkey: HotkeyState, runAs: RunAsState)

  /** The environment's answers to one switch: the executable's path, the
      session, the desktop setting, what OpenDesktop leaves, whether
      CreateDesktop succeeds, and run-as's answers. */
  datatype SwitchEnv = SwitchEnv(
    modulePath: string,
    sessionId: Ulong,
    setting: string,
    openDesktop: OpenDesktopOutcome,
    desktopCreated: bool,
    runAs: RunAsOracle)

  /** The run-as request a switch makes for a desktop setting. */
  function SwitchRequest(env: SwitchEnv): RunAsRequest {
    RunAsRequest(
      env.modulePath, SwitchCommandLine(DesktopName(env.setting)),
      Some(SystemAccount), Some(""), LogonService, 0, env.sessionId, env.setting, false)
  }

  /** One hook call: the new state, whether the trigger fired, the run-as
      request made (if any) and the calls in order. */
  datatype StepResult = StepResult(system: System, fired: bool, request: Option<RunAsRequest>, calls: seq<OsCall>)

  /** LowLevelKeyboardProc. */
  function OnKeyEvent(s: System, e: KeyEvent, env: SwitchEnv): (r: StepResult)
    ensures e.nCode != HcAction ==> r.system == s && !r.fired && r.request.None?
    ensures e.nCode == HcAction ==>
              var h := UpdateModifiers(s.hotkey, e);
              && r.system.hotkey.ctrlEnabled == h.ctrlEnabled
              && r.system.hotkey.altEnabled == h.altEnabled
              && r.system.hotkey.shiftEnabled == h.shiftEnabled
    ensures r.fired <==> e.nCode == HcAction && AllHeld(s.hotkey) && IsTriggerKey(e.vkCode) && !s.hotkey.switching
    ensures r.request.Some? <==> r.fired && (env.openDesktop.lastError != ErrorFileNotFound || env.desktopCreated)
    ensures r.request.Some? ==> r.request.value == SwitchRequest(env)
    ensures r.system.hotkey.switching <==>
              s.hotkey.switching || (r.fired && env.openDesktop.lastError == ErrorFileNotFound && !env.desktopCreated)
    ensures r.request.Some? ==> r.system.runAs == ExecuteRunAsCommand2(s.runAs, SwitchRequest(env), env.runAs).state
    ensures r.request.None? ==> r.system.runAs == s.runAs
    ensures r.system.runAs.phsvc == s.runAs.phsvc
  {
    var next := CallNextHook(e.nCode, e.message, e.vkCode);
    if e.nCode != HcAction then StepResult(s, false, None, [next])
    else
      var h := UpdateModifiers(s.hotkey, e);
      if !(AllHeld(h) && IsTriggerKey(e.vkCode) && !h.switching) then
        StepResult(s.(hotkey := h), false, None, [next])
      else
        var desktop := DesktopName(env.setting);
        var probe := DesktopExists(desktop, env.openDesktop);
        if !probe.0 && !env.desktopCreated then
          StepResult(s.(hotkey := h.(switching := true)), true, None,
                     probe.1 + [CreateDesktop(desktop), ShowMessage, next])
        else
          var create := if probe.0 then [] else [CreateDesktop(desktop)];
          var req := SwitchRequest(env);
          var run := ExecuteRunAsCommand2(s.runAs, req, env.runAs);
          StepResult(System(h.(switching := false), run.state), true, Some(req),
                     probe.1 + create + run.calls + [Sleep(SwitchDelayMilliseconds), next])
  }

  /** Every hook call hands the event on, as its last call; a call that
      does not fire makes no other. */
  lemma StepPassesEvent(s: System, e: KeyEvent, env: SwitchEnv)
    ensures var r := OnKeyEvent(s, e, env);
            && |r.calls| > 0 && r.calls[|r.calls| - 1] == CallNextHook(e.nCode, e.message, e.vkCode)
            && (!r.fired ==> r.calls == [CallNextHook(e.nCode, e.message, e.vkCode)])
  {
  }

  /** A switch starts by probing the configured desktop. */
  lemma StepProbesFirst(s: System, e: KeyEvent, env: SwitchEnv)
    ensures var r := OnKeyEvent(s, e, env);
            r.fired ==> r.calls[0] == OpenDesktop(DesktopName(env.setting))
  {
    var r := OnKeyEvent(s, e, env);
    var desktop := DesktopName(env.setting);
    var probe := DesktopExists(desktop, env.openDesktop);
    if Relaunches(s, e, env) {
      RelaunchCalls(s, e, env);
      assert r.calls[0] == probe.1[0];
    } else if r.fired {
      assert r.calls == probe.1 + [CreateDesktop(desktop), ShowMessage, CallNextHook(e.nCode, e.message, e.vkCode)];
    }
  }

  /** The configured desktop is created exactly when a switch finds it
      absent. */
  lemma StepCreatesOnlyAbsentDesktop(s: System, e: KeyEvent, env: SwitchEnv)
    ensures var r := OnKeyEvent(s, e, env);
            CreateDesktop(DesktopName(env.setting)) in r.calls <==>
              r.fired && env.openDesktop.lastError == ErrorFileNotFound
  {
    var r := OnKeyEvent(s, e, env);
    var desktop := DesktopName(env.setting);
    if Relaunches(s, e, env) {
      var probe := DesktopExists(desktop, env.openDesktop);
      var run := ExecuteRunAsCommand2(s.runAs, SwitchRequest(env), env.runAs);
      var create: seq<OsCall> := if probe.0 then [] else [CreateDesktop(desktop)];
      var tail := [Sleep(SwitchDelayMilliseconds), CallNextHook(e.nCode, e.message, e.vkCode)];
      RelaunchCalls(s, e, env);
      RunAsMakesNoHookCall(s.runAs, SwitchRequest(env), env.runAs);
      InPartsOnlyIn(probe.1, create, run.calls, tail, CreateDesktop(desktop));
    } else if r.fired {
      assert r.calls[|r.calls| - 3] == CreateDesktop(desktop);
    }
  }

  /** The error box is shown exactly when a switch could not create the
      missing desktop, and then just before the event is handed on. */
  lemma StepReportsCreateFailure(s: System, e: KeyEvent, env: SwitchEnv)
    ensures var r := OnKeyEvent(s, e, env);
            ShowMessage in r.calls <==> r.fired && r.request.None?
    ensures var r := OnKeyEvent(s, e, env);
            r.fired && r.request.None? ==>
              |r.calls| >= 3 && r.calls[|r.calls| - 3..] ==
                [CreateDesktop(DesktopName(env.setting)), ShowMessage, CallNextHook(e.nCode, e.message, e.vkCode)]
  {
    var r := OnKeyEvent(s, e, env);
    var desktop := DesktopName(env.setting);
    var probe := DesktopExists(desktop, env.openDesktop);
    if Relaunches(s, e, env) {
      var run := ExecuteRunAsCommand2(s.runAs, SwitchRequest(env), env.runAs);
      var create: seq<OsCall> := if probe.0 then [] else [CreateDesktop(desktop)];
      var tail := [Sleep(SwitchDelayMilliseconds), CallNextHook(e.nCode, e.message, e.vkCode)];
      RelaunchCalls(s, e, env);
      RunAsMakesNoHookCall(s.runAs, SwitchRequest(env), env.runAs);
      InPartsOnlyIn(probe.1, create, run.calls, tail, ShowMessage);
    } else if r.fired {
      assert r.calls == probe.1 + [CreateDesktop(desktop), ShowMessage, CallNextHook(e.nCode, e.message, e.vkCode)];
    } else {
      StepPassesEvent(s, e, env);
    }
  }

  /** The hook call fires and finds the desktop present or creates it, so
      it relaunches through run-as. */
  predicate Relaunches(s: System, e: KeyEvent, env: SwitchEnv) {
    && e.nCode == HcAction && AllHeld(s.hotkey) && IsTriggerKey(e.vkCode) && !s.hotkey.switching
    && (env.openDesktop.lastError != ErrorFileNotFound || env.desktopCreated)
  }

  /** The calls of a relaunching hook call, part by part. */
  lemma RelaunchCalls(s: System, e: KeyEvent, env: SwitchEnv)
    requires Relaunches(s, e, env)
    ensures var desktop := DesktopName(env.setting);
            var probe := DesktopExists(desktop, env.openDesktop);
            OnKeyEvent(s, e, env).calls
              == probe.1
                 + (if probe.0 then [] else [CreateDesktop(desktop)])
                 + ExecuteRunAsCommand2(s.runAs, SwitchRequest(env), env.runAs).calls
                 + [Sleep(SwitchDelayMilliseconds), CallNextHook(e.nCode, e.message, e.vkCode)]
  {
  }

  /** The hook waits before re-arming exactly when it relaunched. */
  lemma StepSleepsAfterRelaunch(s: System, e: KeyEvent, env: SwitchEnv)
    ensures var r := OnKeyEvent(s, e, env);
            Sleep(SwitchDelayMilliseconds) in r.calls <==> r.request.Some?
  {
    var r := OnKeyEvent(s, e, env);
    var desktop := DesktopName(env.setting);
    var probe := DesktopExists(desktop, env.openDesktop);
    var next := CallNextHook(e.nCode, e.message, e.vkCode);
    if Relaunches(s, e, env) {
      RelaunchCalls(s, e, env);
      var tail := [Sleep(SwitchDelayMilliseconds), next];
      assert r.calls[|r.calls| - 2] == tail[0];
    } else if r.fired {
      assert r.calls == probe.1 + [CreateDesktop(desktop), ShowMessage, next];
    } else {
      StepPassesEvent(s, e, env);
    }
  }

  /** The relaunched instance switches to the desktop the setting names,
      and run-as is asked to start it on the setting's window station and
      desktop, as SYSTEM, with a service logon. */
  lemma RelaunchTargetsSetting(s: System, e: KeyEvent, env: SwitchEnv)
    requires Relaunches(s, e, env)
    ensures var req := OnKeyEvent(s, e, env).request.value;
            && ParseSwitchArgument(req.commandLine) == SwitchTo(DesktopName(env.setting))
            && req.desktopName == env.setting
            && req.fileName == env.modulePath
            && req.userName == Some(SystemAccount)
            && req.logonType == LogonService
            && req.password == Some("")
            && req.processIdWithToken == 0
            && req.sessionId == env.sessionId
            && !req.useLinkedToken
  {
    SwitchRoundTrip(DesktopName(env.setting));
  }

  /** Whatever service carries it, the relaunch is created by a logon as
      SYSTEM (domain NT AUTHORITY, user SYSTEM, empty password, service
      logon) into the hook's session and onto the setting's desktop, with
      no working directory, and not from another process's token or a
      linked token. */
  lemma RelaunchLogsOnAsSystem(env: SwitchEnv, serviceName: string, createProcessAsUser: CreateProcessCall -> NtStatus)
    ensures var call := InvokeRunAsService(ServiceParameters(SwitchRequest(env), serviceName), createProcessAsUser).0;
            && call.info == CreateProcessInfo(
                 env.modulePath, SwitchCommandLine(DesktopName(env.setting)), None,
                 Some(SystemDomain), Some(SystemUser), Some(""), LogonService, env.sessionId, env.setting, 0)
            && call.flags == {SetSessionId}
  {
    LogonRequest(ServiceParameters(SwitchRequest(env), serviceName), SystemDomain, SystemUser);
  }

  /** There is no key-down test on the trigger: with the modifiers held,
      releasing P, or pressing or releasing F1, fires as well. */
  lemma TriggerIgnoresMessage(s: System, message: Ulong, vk: Ulong, env: SwitchEnv)
    requires AllHeld(s.hotkey) && !s.hotkey.switching && IsTriggerKey(vk)
    ensures OnKeyEvent(s, KeyEvent(HcAction, message, vk), env).fired
  {
  }

  /** The call that hands event `e` on to the next hook. */
  function NextHookOf(e: KeyEvent): OsCall {
    CallNextHook(e.nCode, e.message, e.vkCode)
  }

  /** The calls of a trace that hand an event on, in order. */
  function HandOffs(calls: seq<OsCall>): seq<OsCall> {
    if |calls| == 0 then []
    else HandOffs(calls[..|calls| - 1]) + (if calls[|calls| - 1].CallNextHook? then [calls[|calls| - 1]] else [])
  }

  lemma {:induction false} HandOffsAppend(a: seq<OsCall>, b: seq<OsCall>)
    ensures HandOffs(a + b) == HandOffs(a) + HandOffs(b)
    decreases |b|
  {
    if |b| == 0 {
      assert a + b == a;
    } else {
      assert (a + b)[..|a + b| - 1] == a + b[..|b| - 1];
      HandOffsAppend(a, b[..|b| - 1]);
    }
  }

  lemma {:induction false} NoHandOffs(calls: seq<OsCall>)
    requires forall c :: c in calls ==> !c.CallNextHook?
    ensures HandOffs(calls) == []
    decreases |calls|
  {
    if |calls| > 0 {
      assert calls[|calls| - 1] in calls;
      NoHandOffs(calls[..|calls| - 1]);
    }
  }

  /** Four parts joined hand on only what the last part hands on when the
      first three hand on nothing. */
  lemma HandOffsOfFour(a: seq<OsCall>, b: seq<OsCall>, c: seq<OsCall>, d: seq<OsCall>)
    requires forall x :: x in a ==> !x.CallNextHook?
    requires forall x :: x in b ==> !x.CallNextHook?
    requires forall x :: x in c ==> !x.CallNextHook?
    ensures HandOffs(a + b + c + d) == HandOffs(d)
  {
    NoHandOffs(a);
    NoHandOffs(b);
    NoHandOffs(c);
    HandOffsAppend(a, b);
    HandOffsAppend(a + b, c);
    HandOffsAppend(a + b + c, d);
  }

  /** A trace that ends with one hand-off and has none before it. */
  lemma HandOffsOfLast(x: OsCall, next: OsCall)
    requires !x.CallNextHook? && next.CallNextHook?
    ensures HandOffs([x, next]) == [next]
  {
    assert [x, next][..1] == [x];
    assert [x][..0] == [];
    assert HandOffs([x]) == [];
  }

  /** The relaunching case of `StepHandsOnOnce`: the launcher's own calls
      include no hand-off, so the final one is the only one. */
  lemma RelaunchHandsOnOnce(s: System, e: KeyEvent, env: SwitchEnv)
    requires Relaunches(s, e, env)
    ensures HandOffs(OnKeyEvent(s, e, env).calls) == [NextHookOf(e)]
  {
    var desktop := DesktopName(env.setting);
    var probe := DesktopExists(desktop, env.openDesktop);
    var run := ExecuteRunAsCommand2(s.runAs, SwitchRequest(env), env.runAs);
    var create: seq<OsCall> := if probe.0 then [] else [CreateDesktop(desktop)];
    RelaunchCalls(s, e, env);
    RunAsMakesNoHookCall(s.runAs, SwitchRequest(env), env.runAs);
    HandOffsOfFour(probe.1, create, run.calls, [Sleep(SwitchDelayMilliseconds), NextHookOf(e)]);
    HandOffsOfLast(Sleep(SwitchDelayMilliseconds), NextHookOf(e));
  }

  /** Each hook call hands its event on exactly once. */
  lemma StepHandsOnOnce(s: System, e: KeyEvent, env: SwitchEnv)
    ensures HandOffs(OnKeyEvent(s, e, env).calls) == [NextHookOf(e)]
  {
    var r := OnKeyEvent(s, e, env);
    var desktop := DesktopName(env.setting);
    var probe := DesktopExists(desktop, env.openDesktop);
    if Relaunches(s, e, env) {
      RelaunchHandsOnOnce(s, e, env);
    } else if r.fired {
      assert r.calls == probe.1 + [CreateDesktop(desktop)] + [ShowMessage] + [NextHookOf(e)];
      HandOffsOfFour(probe.1, [CreateDesktop(desktop)], [ShowMessage], [NextHookOf(e)]);
      assert [NextHookOf(e)][..0] == [];
    } else {
      StepPassesEvent(s, e, env);
      assert [NextHookOf(e)][..0] == [];
    }
  }

  /** The outcome of a sequence of hook calls. */
  datatype RunResult = RunResult(system: System, requests: seq<RunAsRequest>, calls: seq<OsCall>)

  /** The hook called once per event, in order; `env(i)` answers for the
      i-th event. */
  function Run(s: System, events: seq<KeyEvent>, env: nat -> SwitchEnv): RunResult
    decreases |events|
  {
    if |events| == 0 then RunResult(s, [], [])
    else
      var before := Run(s, events[..|events| - 1], env);
      var step := OnKeyEvent(before.system, events[|events| - 1], env(|events| - 1));
      RunResult(step.system,
                before.requests + (if step.request.Some? then [step.request.value] else []),
                before.calls + step.calls)
  }

  /** A switch whose desktop could not be created leaves the guard set for
      good: from then on no event fires and no run-as request is made. */
  lemma {:induction false} StuckGuardSuppresses(s: System, events: seq<KeyEvent>, env: nat -> SwitchEnv)
    requires s.hotkey.switching
    ensures Run(s, events, env).system.hotkey.switching
    ensures Run(s, events, env).requests == []
    ensures Run(s, events, env).system.runAs == s.runAs
    decreases |events|
  {
    if |events| > 0 {
      StuckGuardSuppresses(s, events[..|events| - 1], env);
    }
  }

  /** Run-as borrows the phsvc connection and gives it back: the reference
      count after any sequence of events is the count before. */
  lemma {:induction false} RunKeepsPhSvcCount(s: System, events: seq<KeyEvent>, env: nat -> SwitchEnv)
    ensures Run(s, events, env).system.runAs.phsvc == s.runAs.phsvc
    decreases |events|
  {
    if |events| > 0 {
      RunKeepsPhSvcCount(s, events[..|events| - 1], env);
    }
  }

  /** The three modifiers the hotkey needs. */
  datatype Modifier = Control | Alt | Shift

  /** `vk` is one of the keys, generic, left or right, of modifier `m`. */
  predicate IsModifierKey(m: Modifier, vk: Ulong) {
    match m
    case Control => IsControlKey(vk)
    case Alt => IsAltKey(vk)
    case Shift => IsShiftKey(vk)
  }

  /** The hook's flag for modifier `m`. */
  predicate Held(h: HotkeyState, m: Modifier) {
    match m
    case Control => h.ctrlEnabled
    case Alt => h.altEnabled
    case Shift => h.shiftEnabled
  }

  /** An event that presses (key-down) a key of `m` while the hook acts. */
  predicate Presses(e: KeyEvent, m: Modifier) {
    e.nCode == HcAction && IsModifierKey(m, e.vkCode) && IsKeyDown(e.message)
  }

  /** Releasing any one modifier blocks the switch until a key of that
      modifier is pressed again, whatever else is pressed meanwhile. */
  lemma {:induction false} ReleasedModifierBlocks(m: Modifier, s: System, events: seq<KeyEvent>, env: nat -> SwitchEnv)
    requires !Held(s.hotkey, m)
    requires forall i :: 0 <= i < |events| ==> !Presses(events[i], m)
    ensures !Held(Run(s, events, env).system.hotkey, m)
    ensures Run(s, events, env).requests == []
    ensures Run(s, events, env).system.runAs == s.runAs
    decreases |events|
  {
    if |events| > 0 {
      ReleasedModifierBlocks(m, s, events[..|events| - 1], env);
    }
  }

  /** Every event is handed on: a run makes at least one call per event,
      and ends with the last event's CallNextHook. */
  lemma {:induction false} RunPassesEveryEvent(s: System, events: seq<KeyEvent>, env: nat -> SwitchEnv)
    ensures |Run(s, events, env).calls| >= |events|
    ensures |events| > 0 ==>
              var last := events[|events| - 1];
              var calls := Run(s, events, env).calls;
              calls[|calls| - 1] == CallNextHook(last.nCode, last.message, last.vkCode)
    decreases |events|
  {
    if |events| > 0 {
      var before := Run(s, events[..|events| - 1], env);
      var last := events[|events| - 1];
      var step := OnKeyEvent(before.system, last, env(|events| - 1));
      assert Run(s, events, env).calls == before.calls + step.calls;
      RunPassesEveryEvent(s, events[..|events| - 1], env);
      StepPassesEvent(before.system, last, env(|events| - 1));
    }
  }

  /** `calls` hands on each of `events`, once and in order. */
  predicate HandsOnInOrder(calls: seq<OsCall>, events: seq<KeyEvent>) {
    var passed := HandOffs(calls);
    |passed| == |events| && forall i :: 0 <= i < |events| ==> passed[i] == NextHookOf(events[i])
  }

  /** Appending the trace of one more event that is handed on once. */
  lemma HandsOnSnoc(before: seq<OsCall>, step: seq<OsCall>, events: seq<KeyEvent>)
    requires |events| > 0
    requires HandsOnInOrder(before, events[..|events| - 1])
    requires HandOffs(step) == [NextHookOf(events[|events| - 1])]
    ensures HandsOnInOrder(before + step, events)
  {
    HandOffsAppend(before, step);
  }

  /** A run hands on every event exactly once, in the order the events came. */
  lemma {:induction false} RunHandsOnEachEvent(s: System, events: seq<KeyEvent>, env: nat -> SwitchEnv)
    ensures HandsOnInOrder(Run(s, events, env).calls, events)
    decreases |events|
  {
    if |events| > 0 {
      var before := Run(s, events[..|events| - 1], env);
      var step := OnKeyEvent(before.system, events[|events| - 1], env(|events| - 1));
      assert Run(s, events, env).calls == before.calls + step.calls;
      RunHandsOnEachEvent(s, events[..|events| - 1], env);
      StepHandsOnOnce(before.system, events[|events| - 1], env(|events| - 1));
      HandsOnSnoc(before.calls, step.calls, events);
    }
  }
}

=== FILE: os_calls.dfy ===
/** The operating-system and IPC calls the core makes, recorded in order.
    Every operation of the model returns the trace of calls it made, so
    ordering and "at most once" properties are stated over that trace. */
module OsCalls {
  import opened Win
  import opened PhStrings
  import opened RunAsService

  /** The LPC ports the client connects to: phsvc's well-known port, or the
      port a one-shot run-as service creates under its own name. */
  datatype Port = PhSvcApiPort | NamedPort(path: string)

  /** Objects whose DACL can be replaced. */
  datatype SecuredObject = WindowStation(name: string) | Desktop(name: string)

  datatype OsCall =
    | ConnectToServer(port: Port)                            // PhSvcConnectToServer
    | DisconnectFromServer                                   // PhSvcDisconnectFromServer
    | DelayExecution                                         // NtDelayExecution between connect attempts
    | ShellElevated(arguments: string)                       // PhShellProcessHacker with the admin verb
    | CallInvokeRunAsService(parameters: RunAsParameters)    // PhSvcCallInvokeRunAsService
    | CallExecuteRunAsCommand(parameters: RunAsParameters)   // PhSvcCallExecuteRunAsCommand
    | OpenScManager
    | CreateService(name: string, commandLine: string)
    | CloseServiceHandle
    | StartService
    | DeleteService
    | OpenWindowStation(name: string)
    | CloseWindowStation
    | OpenDesktop(name: string)
    | CreateDesktop(name: string)
    | CloseDesktop
    | SetObjectSecurity(target: SecuredObject, dacl: seq<Ace>)
    | ShowMessage
    | Sleep(milliseconds: nat)
    | CallNextHook(nCode: int, message: Ulong, vkCode: Ulong)

  /** The calls only the keyboard hook itself makes. */
  predicate IsHookCall(c: OsCall) {
    c.CreateDesktop? || c.ShowMessage? || c.Sleep? || c.CallNextHook?
  }

  /** `a` and `b` both occur, and the first `a` comes before the first `b`. */
  predicate InOrder(calls: seq<OsCall>, a: OsCall, b: OsCall) {
    a in calls && b in calls && IndexOf(calls, a) < IndexOf(calls, b)
  }

  /** Every connect call in `calls` goes to `port`. */
  predicate ConnectsOnlyTo(calls: seq<OsCall>, port: Port) {
    forall i :: 0 <= i < |calls| && calls[i].ConnectToServer? ==> calls[i].port == port
  }

  lemma ConnectsOnlyToAppend(a: seq<OsCall>, b: seq<OsCall>, port: Port)
    ensures ConnectsOnlyTo(a + b, port) <==> ConnectsOnlyTo(a, port) && ConnectsOnlyTo(b, port)
  {
    if ConnectsOnlyTo(a, port) && ConnectsOnlyTo(b, port) {
      forall i | 0 <= i < |a + b| && (a + b)[i].ConnectToServer?
        ensures (a + b)[i].port == port
      {
        if i >= |a| {
          assert (a + b)[i] == b[i - |a|];
        }
      }
    }
    if ConnectsOnlyTo(a + b, port) {
      forall i | 0 <= i < |b| && b[i].ConnectToServer?
        ensures b[i].port == port
      {
        assert (a + b)[|a| + i] == b[i];
      }
      forall i | 0 <= i < |a| && a[i].ConnectToServer?
        ensures a[i].port == port
      {
        assert (a + b)[i] == a[i];
      }
    }
  }

  /** Each of `x`, `y` and `z` occurs exactly once in `calls`, in that order. */
  predicate OnceEachInOrder(calls: seq<OsCall>, x: OsCall, y: OsCall, z: OsCall) {
    && Count(calls, x) == 1 && Count(calls, y) == 1 && Count(calls, z) == 1
    && InOrder(calls, x, y) && InOrder(calls, y, z)
  }

  /** Three distinct calls, each absent from the parts around them, occur
      once each and in the order written. */
  lemma ThreeOnce(pre: seq<OsCall>, x: OsCall, mid: seq<OsCall>, y: OsCall, z: OsCall, post: seq<OsCall>)
    requires x != y && x != z && y != z
    requires x !in pre && x !in mid && x !in post
    requires y !in pre && y !in mid && y !in post
    requires z !in pre && z !in mid && z !in post
    ensures OnceEachInOrder(pre + [x] + mid + [y] + [z] + post, x, y, z)
  {
    var s := pre + [x] + mid + [y] + [z] + post;
    assert Count(s, x) == 1 && IndexOf(s, x) == |pre| by {
      assert s == pre + [x] + (mid + [y] + [z] + post);
      CountOnce(pre, x, mid + [y] + [z] + post);
    }
    assert Count(s, y) == 1 && IndexOf(s, y) == |pre| + 1 + |mid| by {
      assert s == (pre + [x] + mid) + [y] + ([z] + post);
      CountOnce(pre + [x] + mid, y, [z] + post);
    }
    assert Count(s, z) == 1 && IndexOf(s, z) == |pre| + 2 + |mid| by {
      assert s == (pre + [x] + mid + [y]) + [z] + post;
      CountOnce(pre + [x] + mid + [y], z, post);
    }
  }

  /** Four distinct calls opening a trace are in order there. */
  lemma FirstFourInOrder(calls: seq<OsCall>, a: OsCall, b: OsCall, c: OsCall, d: OsCall)
    requires |calls| >= 4 && calls[..4] == [a, b, c, d]
    requires a != b && a != c && a != d && b != c && b != d && c != d
    ensures InOrder(calls, a, b) && InOrder(calls, b, c) && InOrder(calls, c, d)
  {
    assert calls[0] == calls[..4][0] && calls[1] == calls[..4][1] && calls[2] == calls[..4][2] && calls[3] == calls[..4][3];
    assert calls[..1] == [a] && calls[..2] == [a, b] && calls[..3] == [a, b, c];
    IndexOfUnique(calls, a, 0);
    IndexOfUnique(calls, b, 1);
    IndexOfUnique(calls, c, 2);
    IndexOfUnique(calls, d, 3);
  }

  /** A trace made of a part ending in `last`, a loop, and a part without
      connects: every connect lies in the loop, after the first `last`. */
  lemma LoopBetween(pre: seq<OsCall>, loop: seq<OsCall>, post: seq<OsCall>, last: OsCall)
    requires |pre| > 0 && pre[|pre| - 1] == last
    requires forall c :: c in pre ==> !c.ConnectToServer? && !c.CallInvokeRunAsService?
    requires forall c :: c in post ==> !c.ConnectToServer?
    ensures var calls := pre + loop + post;
            && last in calls
            && |calls| > 0 && (|post| > 0 ==> calls[|calls| - 1] == post[|post| - 1])
            && forall i :: 0 <= i < |calls| && calls[i].ConnectToServer? ==> IndexOf(calls, last) < i < |pre| + |loop|
  {
    var calls := pre + loop + post;
    IndexOfAtMost(calls, last, |pre| - 1);
  }

  /** A trace made of a part without connects or invokes, a loop without
      invokes, and a closing part that either invokes, disconnects and
      closes or only closes: an invoke comes after every connect and only
      the disconnect and the close follow it. */
  lemma InvokeAfterLoop(pre: seq<OsCall>, loop: seq<OsCall>, post: seq<OsCall>, invoke: OsCall)
    requires invoke.CallInvokeRunAsService?
    requires forall c :: c in pre ==> !c.ConnectToServer? && !c.CallInvokeRunAsService?
    requires forall c :: c in loop ==> !c.CallInvokeRunAsService?
    requires post == [invoke, DisconnectFromServer, CloseServiceHandle] || post == [CloseServiceHandle]
    ensures var calls := pre + loop + post;
            invoke in calls ==>
              && (forall i :: 0 <= i < |calls| && calls[i].ConnectToServer? ==> i < IndexOf(calls, invoke))
              && |calls| >= 3
              && calls[|calls| - 3..] == [invoke, DisconnectFromServer, CloseServiceHandle]
  {
    var calls := pre + loop + post;
    if invoke in calls {
      assert invoke !in pre + loop;
      assert post == [invoke, DisconnectFromServer, CloseServiceHandle];
      FirstOfLast(pre + loop, post, invoke);
      assert calls[|calls| - 3..] == post;
    }
  }
}

=== FILE: ph_strings.dfy ===
/** The string searches of the Process Hacker library as the core uses them:
    every search starts at index 0 and reports the first match, or -1. */
module PhStrings {
  import opened Win

  /** Index of the first `x` in `s`, or -1 (PhFindCharInString from 0). */
  function IndexOf<T(==)>(s: seq<T>, x: T): (i: int)
    ensures -1 <= i < |s|
    ensures i == -1 <==> x !in s
    ensures 0 <= i ==> s[i] == x && x !in s[..i]
  {
    if |s| == 0 then -1
    else if s[0] == x then 0
    else
      var j := IndexOf(s[1..], x);
      assert s == [s[0]] + s[1..];
      if j == -1 then -1
      else
        assert s[..j + 1] == [s[0]] + s[1..][..j];
        j + 1
  }

  /** The first occurrence is the only index that is an occurrence with none before it. */
  lemma IndexOfUnique<T>(s: seq<T>, x: T, i: nat)
    requires i < |s| && s[i] == x && x !in s[..i]
    ensures IndexOf(s, x) == i
  {
  }

  /** The first occurrence comes no later than any occurrence. */
  lemma IndexOfAtMost<T>(s: seq<T>, x: T, j: nat)
    requires j < |s| && s[j] == x
    ensures 0 <= IndexOf(s, x) <= j
  {
  }

  /** The number of times `x` occurs in `s`. */
  function Count<T(==)>(s: seq<T>, x: T): nat {
    if |s| == 0 then 0 else Count(s[..|s| - 1], x) + (if s[|s| - 1] == x then 1 else 0)
  }

  lemma {:induction false} CountAppend<T>(a: seq<T>, b: seq<T>, x: T)
    ensures Count(a + b, x) == Count(a, x) + Count(b, x)
    decreases |b|
  {
    if |b| == 0 {
      assert a + b == a;
    } else {
      assert (a + b)[..|a + b| - 1] == a + b[..|b| - 1];
      CountAppend(a, b[..|b| - 1], x);
    }
  }

  lemma {:induction false} CountAbsent<T>(s: seq<T>, x: T)
    ensures Count(s, x) == 0 <==> x !in s
    decreases |s|
  {
    if |s| > 0 {
      CountAbsent(s[..|s| - 1], x);
      assert s == s[..|s| - 1] + [s[|s| - 1]];
    }
  }

  /** `pattern` occurs in `s` starting at `i`. */
  predicate OccursAt(s: string, pattern: string, i: nat) {
    i + |pattern| <= |s| && s[i..i + |pattern|] == pattern
  }

  /** First occurrence of `pattern` at or after `from`, or -1. */
  function FindStringFrom(s: string, pattern: string, from: nat): (i: int)
    decreases |s| - from
    ensures i == -1 || from <= i
    ensures i == -1 <==> forall k: nat :: from <= k ==> !OccursAt(s, pattern, k)
    ensures 0 <= i ==> OccursAt(s, pattern, i) && forall k: nat :: from <= k < i ==> !OccursAt(s, pattern, k)
  {
    if |s| < from + |pattern| then -1
    else if s[from..from + |pattern|] == pattern then
      assert OccursAt(s, pattern, from);
      from
    else FindStringFrom(s, pattern, from + 1)
  }

  /** PhFindStringInString from index 0: the first occurrence of `pattern`, or -1. */
  function FindString(s: string, pattern: string): (i: int)
    ensures i == -1 <==> forall k: nat :: !OccursAt(s, pattern, k)
    ensures 0 <= i ==> OccursAt(s, pattern, i) && forall k: nat :: k < i ==> !OccursAt(s, pattern, k)
  {
    FindStringFrom(s, pattern, 0)
  }

  /** PhSplitStringRefAtChar: the text before and after the first `c`, or
      nothing when `c` does not occur. */
  function SplitAtChar(s: string, c: char): (r: Option<(string, string)>)
    ensures r.None? <==> c !in s
    ensures r.Some? ==> r.value.0 + [c] + r.value.1 == s && c !in r.value.0
  {
    var i := IndexOf(s, c);
    if i == -1 then None
    else
      assert s == s[..i] + [c] + s[i + 1..];
      Some((s[..i], s[i + 1..]))
  }

  /** SplitAtChar inverts joining two parts at `c` when the first part has no `c`. */
  lemma {:induction false} SplitAtCharOfJoin(a: string, c: char, b: string)
    requires c !in a
    ensures SplitAtChar(a + [c] + b, c) == Some((a, b))
  {
    var s := a + [c] + b;
    assert s[..|a|] == a;
    IndexOfUnique(s, c, |a|);
    assert s[|a| + 1..] == b;
  }

  /** `x` occurs once in `a + [x] + b` when neither part holds it, at index |a|. */
  lemma CountOnce<T>(a: seq<T>, x: T, b: seq<T>)
    requires x !in a && x !in b
    ensures Count(a + [x] + b, x) == 1
    ensures IndexOf(a + [x] + b, x) == |a|
  {
    CountAbsent(a, x);
    CountAbsent(b, x);
    CountAppend(a, [x], x);
    CountAppend(a + [x], b, x);
    assert [x][..0] == [];
    assert (a + [x] + b)[..|a|] == a;
    IndexOfUnique(a + [x] + b, x, |a|);
  }

  /** Re-brackets a concatenation of seven parts. */
  lemma Regroup<T>(a: seq<T>, b: seq<T>, c: seq<T>, d: seq<T>, e: seq<T>, f: seq<T>, g: seq<T>)
    ensures a + (b + c) + (d + e) + f + g == a + b + c + d + e + (f + g)
  {
  }

  /** `x` occurs in four parts joined exactly when it occurs in the second,
      if the other three do not hold it. */
  lemma InPartsOnlyIn<T>(a: seq<T>, b: seq<T>, c: seq<T>, d: seq<T>, x: T)
    requires x !in a && x !in c && x !in d
    ensures x in a + b + c + d <==> x in b
  {
  }

  /** The first element of the last part is first found there when the
      part before does not hold it. */
  lemma FirstOfLast<T>(a: seq<T>, b: seq<T>, x: T)
    requires |b| > 0 && b[0] == x && x !in a
    ensures IndexOf(a + b, x) == |a|
  {
    assert (a + b)[..|a|] == a;
    IndexOfUnique(a + b, x, |a|);
  }
}

=== FILE: phsvc.dfy ===
/** The phsvc connection (phf/runas.c:131-230) and the bounded connect
    retry shared with the one-shot launcher (phf/runas.c:180-194 and
    294-307). A process-wide reference count decides when real work is
    done: only its 0 -> 1 step connects (and may elevate), and only its
    1 -> 0 step disconnects. Each locked region is one atomic step. */
module PhSvc {
  import opened Win
  import opened OsCalls
  import opened PhStrings

  /** Both retry loops start from `attempts = 10`. */
  const MaxConnectAttempts: nat := 10

  /** The argument phsvc is started with when elevating. */
  const PhSvcArgument := "-phsvc"

  /** How a retry loop ended: the status of its last connect call, and
      how many connect calls it made. */
  datatype RetryOutcome = RetryOutcome(status: NtStatus, calls: nat)

  /** The retry loop after `made` failed attempts. `attempt(k)` is the
      status the k-th connect call (from 0) returns. */
  function RetryFrom(attempt: nat -> NtStatus, made: nat): (r: RetryOutcome)
    requires made < MaxConnectAttempts
    decreases MaxConnectAttempts - made
    ensures made < r.calls <= MaxConnectAttempts
    ensures r.status == attempt(r.calls - 1)
    ensures forall k :: made <= k < r.calls - 1 ==> !NtSuccess(attempt(k))
    ensures NtSuccess(r.status) || r.calls == MaxConnectAttempts
  {
    if NtSuccess(attempt(made)) || made + 1 == MaxConnectAttempts then RetryOutcome(attempt(made), made + 1)
    else RetryFrom(attempt, made + 1)
  }

  /** The do/while connect loop: at least one and at most ten calls, stopping
      at the first success; the outcome is the last call's status. */
  function Retry(attempt: nat -> NtStatus): (r: RetryOutcome)
    ensures 1 <= r.calls <= MaxConnectAttempts
    ensures r.status == attempt(r.calls - 1)
    ensures forall k :: 0 <= k < r.calls - 1 ==> !NtSuccess(attempt(k))
    ensures NtSuccess(r.status) || r.calls == MaxConnectAttempts
  {
    RetryFrom(attempt, 0)
  }

  /** The loop ends in success exactly when one of the ten attempts it may
      make would succeed: no success is missed and none is invented. */
  lemma RetrySucceedsIff(attempt: nat -> NtStatus)
    ensures NtSuccess(Retry(attempt).status) <==> exists k :: 0 <= k < MaxConnectAttempts && NtSuccess(attempt(k))
  {
    var r := Retry(attempt);
    if !NtSuccess(r.status) {
      assert forall k :: 0 <= k < MaxConnectAttempts ==> !NtSuccess(attempt(k)) by {
        forall k | 0 <= k < MaxConnectAttempts
          ensures !NtSuccess(attempt(k))
        {
          if k < r.calls - 1 {
          } else {
            assert k == r.calls - 1;
          }
        }
      }
    }
  }

  /** The calls of `n` failed attempts: each connect is followed by a delay. */
  function FailedAttempts(port: Port, n: nat): seq<OsCall> {
    if n == 0 then [] else FailedAttempts(port, n - 1) + [ConnectToServer(port), DelayExecution]
  }

  /** The calls a retry loop makes: the delay follows every failed attempt,
      the last one included, and no call follows a success. */
  function RetryCalls(port: Port, r: RetryOutcome): seq<OsCall>
    requires 1 <= r.calls
  {
    FailedAttempts(port, r.calls - 1) + [ConnectToServer(port)] + (if NtSuccess(r.status) then [] else [DelayExecution])
  }

  lemma {:induction false} FailedAttemptsCount(port: Port, n: nat)
    ensures Count(FailedAttempts(port, n), ConnectToServer(port)) == n
    ensures forall c :: c in FailedAttempts(port, n) ==> c == ConnectToServer(port) || c == DelayExecution
  {
    if n > 0 {
      FailedAttemptsCount(port, n - 1);
      CountAppend(FailedAttempts(port, n - 1), [ConnectToServer(port), DelayExecution], ConnectToServer(port));
      var pair := [ConnectToServer(port), DelayExecution];
      assert pair[..1] == [ConnectToServer(port)] && pair[..1][..0] == [];
      assert Count(pair[..1], ConnectToServer(port)) == 1;
      assert Count(pair, ConnectToServer(port)) == 1;
    }
  }

  /** The trace of a retry loop holds one connect call per attempt, each to
      the same port, and nothing but connects and delays. */
  lemma RetryCallsCount(port: Port, r: RetryOutcome)
    requires 1 <= r.calls
    ensures Count(RetryCalls(port, r), ConnectToServer(port)) == r.calls
    ensures forall c :: c in RetryCalls(port, r) ==> c == ConnectToServer(port) || c == DelayExecution
  {
    var c := ConnectToServer(port);
    var tail: seq<OsCall> := if NtSuccess(r.status) then [] else [DelayExecution];
    FailedAttemptsCount(port, r.calls - 1);
    CountAppend(FailedAttempts(port, r.calls - 1), [c], c);
    CountAppend(FailedAttempts(port, r.calls - 1) + [c], tail, c);
    assert [c][..0] == [];
    if !NtSuccess(r.status) {
      assert tail[..0] == [];
    }
  }

  /** The retry loop from attempt `made` on ends at the first success
      `n`, or at the tenth attempt when all fail. */
  lemma {:induction false} RetryFromFirstSuccess(attempt: nat -> NtStatus, made: nat, n: nat)
    requires made <= n < MaxConnectAttempts
    requires forall k :: made <= k < n ==> !NtSuccess(attempt(k))
    requires NtSuccess(attempt(n)) || n + 1 == MaxConnectAttempts
    ensures RetryFrom(attempt, made) == RetryOutcome(attempt(n), n + 1)
    decreases n - made
  {
    if made < n {
      assert !NtSuccess(attempt(made));
      RetryFromFirstSuccess(attempt, made + 1, n);
    }
  }

  /** The connect loop as the source writes it: a do/while over a counter
      starting at ten, leaving early on the first successful connect. */
  method ConnectWithRetry(port: Port, attempt: nat -> NtStatus) returns (status: NtStatus, calls: seq<OsCall>)
    ensures status == Retry(attempt).status
    ensures calls == RetryCalls(port, Retry(attempt))
  {
    var attempts := MaxConnectAttempts;
    var made := 0;
    calls := [];
    while true
      invariant 0 <= made < MaxConnectAttempts && attempts == MaxConnectAttempts - made
      invariant calls == FailedAttempts(port, made)
      invariant forall k :: 0 <= k < made ==> !NtSuccess(attempt(k))
      decreases attempts
    {
      status := attempt(made);
      calls := calls + [ConnectToServer(port)];
      if NtSuccess(status) {
        RetryFromFirstSuccess(attempt, 0, made);
        break;
      }
      calls := calls + [DelayExecution];
      made := made + 1;
      attempts := attempts - 1;
      if attempts == 0 {
        RetryFromFirstSuccess(attempt, 0, made - 1);
        break;
      }
    }
  }

  /** PhSvcReferenceCount. */
  datatype PhSvcState = PhSvcState(referenceCount: nat)

  /** The environment's answers to one PhUiConnectToPhSvc: the first connect's
      status, whether the elevation prompt started phsvc, and the statuses of
      the connect attempts that follow it. */
  datatype ConnectOracle = ConnectOracle(firstConnect: NtStatus, elevationAccepted: bool, retry: nat -> NtStatus)

  datatype ConnectOutcome = ConnectOutcome(started: bool, state: PhSvcState, calls: seq<OsCall>)

  /** PhUiConnectToPhSvc. A non-zero count is only incremented. From zero the
      well-known port is tried; on failure, unless `connectOnly`, phsvc is
      started elevated and the port retried, and the count is raised even
      when every retry fails so that the user is not prompted again. */
  function UiConnect(s: PhSvcState, connectOnly: bool, o: ConnectOracle): (r: ConnectOutcome)
    ensures r.started <==> r.state.referenceCount == s.referenceCount + 1
    ensures !r.started ==> r.state == s
    ensures s.referenceCount != 0 ==> r.started && r.calls == []
    ensures s.referenceCount == 0 && NtSuccess(o.firstConnect) ==>
              r.started && r.calls == [ConnectToServer(PhSvcApiPort)]
    ensures s.referenceCount == 0 && !NtSuccess(o.firstConnect) ==>
              (r.started <==> !connectOnly && o.elevationAccepted)
    ensures s.referenceCount == 0 && !NtSuccess(o.firstConnect) && connectOnly ==>
              r.calls == [ConnectToServer(PhSvcApiPort)]
    ensures s.referenceCount == 0 && !NtSuccess(o.firstConnect) && !connectOnly && !o.elevationAccepted ==>
              r.calls == [ConnectToServer(PhSvcApiPort), ShellElevated(PhSvcArgument)]
    ensures s.referenceCount == 0 && !NtSuccess(o.firstConnect) && !connectOnly && o.elevationAccepted ==>
              r.calls == [ConnectToServer(PhSvcApiPort), ShellElevated(PhSvcArgument)] + RetryCalls(PhSvcApiPort, Retry(o.retry))
    ensures ShellElevated(PhSvcArgument) in r.calls <==>
              s.referenceCount == 0 && !NtSuccess(o.firstConnect) && !connectOnly
    ensures Count(r.calls, ConnectToServer(PhSvcApiPort)) <= 1 + MaxConnectAttempts
    ensures forall c :: c in r.calls ==> c == ConnectToServer(PhSvcApiPort) || c == ShellElevated(PhSvcArgument) || c == DelayExecution
  {
    var first := [ConnectToServer(PhSvcApiPort)];
    var shell := [ConnectToServer(PhSvcApiPort), ShellElevated(PhSvcArgument)];
    if s.referenceCount != 0 then ConnectOutcome(true, PhSvcState(s.referenceCount + 1), [])
    else if NtSuccess(o.firstConnect) then ConnectOutcome(true, PhSvcState(1), first)
    else if connectOnly then ConnectOutcome(false, s, first)
    else if !o.elevationAccepted then ConnectOutcome(false, s, shell)
    else
      ElevatedCalls(Retry(o.retry));
      ConnectOutcome(true, PhSvcState(1), shell + RetryCalls(PhSvcApiPort, Retry(o.retry)))
  }

  /** After an accepted elevation: the first connect, the prompt, then one
      connect per retry attempt and only delays besides. */
  lemma ElevatedCalls(retry: RetryOutcome)
    requires 1 <= retry.calls
    ensures var calls := [ConnectToServer(PhSvcApiPort), ShellElevated(PhSvcArgument)] + RetryCalls(PhSvcApiPort, retry);
            && Count(calls, ConnectToServer(PhSvcApiPort)) == 1 + retry.calls
            && ShellElevated(PhSvcArgument) in calls
            && forall c :: c in calls ==> c == ConnectToServer(PhSvcApiPort) || c == ShellElevated(PhSvcArgument) || c == DelayExecution
  {
    var shell := [ConnectToServer(PhSvcApiPort), ShellElevated(PhSvcArgument)];
    var retryCalls := RetryCalls(PhSvcApiPort, retry);
    RetryCallsCount(PhSvcApiPort, retry);
    CountAppend(shell, retryCalls, ConnectToServer(PhSvcApiPort));
    CountAppend([ConnectToServer(PhSvcApiPort)], [ShellElevated(PhSvcArgument)], ConnectToServer(PhSvcApiPort));
    assert shell == [ConnectToServer(PhSvcApiPort)] + [ShellElevated(PhSvcArgument)];
    assert [ConnectToServer(PhSvcApiPort)][..0] == [];
  }

  /** PhUiDisconnectFromPhSvc: the count drops by one and the server is
      disconnected exactly when it reaches zero. The source has no guard
      against a count of zero; balanced use never reaches one. */
  function UiDisconnect(s: PhSvcState): (r: (PhSvcState, seq<OsCall>))
    requires s.referenceCount > 0
    ensures r.0.referenceCount + 1 == s.referenceCount
    ensures DisconnectFromServer in r.1 <==> s.referenceCount == 1
    ensures forall c :: c in r.1 ==> c == DisconnectFromServer
    ensures |r.1| == (if s.referenceCount == 1 then 1 else 0)
  {
    var count := s.referenceCount - 1;
    (PhSvcState(count), if count == 0 then [DisconnectFromServer] else [])
  }

  /** A connect that started, followed by its disconnect, restores the count;
      the pair does real work at both ends exactly when the count was zero. */
  lemma ConnectThenDisconnect(s: PhSvcState, connectOnly: bool, o: ConnectOracle)
    requires UiConnect(s, connectOnly, o).started
    ensures var c := UiConnect(s, connectOnly, o);
            var d := UiDisconnect(c.state);
            && d.0 == s
            && (DisconnectFromServer in d.1 <==> s.referenceCount == 0)
            && (ConnectToServer(PhSvcApiPort) in c.calls <==> s.referenceCount == 0)
  {
  }

  /** Nested use: while another user holds the connection, a connect and its
      disconnect make no call at all and restore the count. */
  lemma NestedUseIsFree(s: PhSvcState, connectOnly: bool, o: ConnectOracle)
    requires s.referenceCount > 0
    ensures var c := UiConnect(s, connectOnly, o);
            c.started && c.calls == [] && UiDisconnect(c.state) == (s, [])
  {
  }
}

=== FILE: runas.dfy ===
/** The client side of run-as (phf/runas.c:39-121 and 239-321): reuse a
    cached run-as service when it still answers, otherwise name a fresh
    one and start it, either directly through the service control manager
    when already elevated or through phsvc when not. */
module RunAs {
  import opened Win
  import opened PhStrings
  import opened RunAsService
  import opened OsCalls
  import opened DesktopAccess
  import opened PhSvc

  /** The fixed part of every generated service name. */
  const ServiceNamePrefix := "ProcessHacker"

  /** The service-name buffers hold 32 wide characters, terminator included. */
  const ServiceNameBufferLength: nat := 32

  /** The count passed to the random-string generator. */
  const RandomSuffixCount: nat := 16

  /** What the random-string generator writes after the prefix; its letters
      are left unspecified. */
  type RandomSuffix = s: string | |s| <= RandomSuffixCount

  /** The directory a run-as service's port is created in. */
  const PortDirectory := "\\BaseNamedObjects\\"

  /** The name of the port a run-as service listens on. */
  function ServicePortName(serviceName: string): (port: string)
    ensures |port| == |PortDirectory| + |serviceName|
    ensures port[..|PortDirectory|] == PortDirectory && port[|PortDirectory|..] == serviceName
  {
    PortDirectory + serviceName
  }

  /** Distinct services listen on distinct ports: the port a client
      connects to names exactly one service. */
  lemma ServicePortNameInjective(a: string, b: string)
    ensures ServicePortName(a) == ServicePortName(b) <==> a == b
  {
    if ServicePortName(a) == ServicePortName(b) {
      assert a == ServicePortName(a)[|PortDirectory|..];
    }
  }

  /** The image path a run-as service is registered with: the executable,
      quoted, then `-ras` and the quoted service name. */
  function ServiceCommandLine(modulePath: string, serviceName: string): string {
    "\"" + modulePath + "\" -ras \"" + serviceName + "\""
  }

  /** The environment's answers to one PhExecuteRunAsCommand: the last error
      of a failed OpenSCManager or CreateService (`None` when the call
      succeeded), the executable's path, the hardening step's answers, the
      statuses of the connect attempts, and the status of the invoke call. */
  datatype LauncherOracle = LauncherOracle(
    openScManagerError: Option<Win32Error>,
    modulePath: string,
    createServiceError: Option<Win32Error>,
    hardening: HardenOracle,
    connect: nat -> NtStatus,
    invoke: NtStatus)

  datatype Outcome = Outcome(status: NtStatus, calls: seq<OsCall>)

  /** PhExecuteRunAsCommand: create a demand-start service running this
      executable with `-ras`, harden the window station and desktop, start
      the service and delete it at once, then connect to its port with the
      bounded retry and, once connected, invoke it. */
  function ExecuteRunAsCommand(p: RunAsParameters, o: LauncherOracle): (r: Outcome)
    ensures o.openScManagerError.Some? ==>
              r.status == StatusFromWin32(o.openScManagerError.value) && r.calls == [OpenScManager]
    ensures o.openScManagerError.None? && o.createServiceError.Some? ==>
              r.status == StatusFromWin32(o.createServiceError.value)
    ensures o.openScManagerError.None? && o.createServiceError.None? ==>
              r.status == (if NtSuccess(Retry(o.connect).status) then o.invoke else Retry(o.connect).status)
  {
    match o.openScManagerError
    case Some(error) => Outcome(StatusFromWin32(error), [OpenScManager])
    case None =>
      match o.createServiceError
      case Some(error) => Outcome(StatusFromWin32(error), LaunchCreate(p, o))
      case None =>
        var retry := Retry(o.connect);
        Outcome(if NtSuccess(retry.status) then o.invoke else retry.status, LaunchTrace(p, o))
  }

  /** When the service cannot be created, the launcher stops there: nothing
      is hardened, started, deleted, connected to or invoked. */
  lemma LauncherCreateFails(p: RunAsParameters, o: LauncherOracle)
    requires o.openScManagerError.None? && o.createServiceError.Some?
    ensures var calls := ExecuteRunAsCommand(p, o).calls;
            && CreateService(p.serviceName, ServiceCommandLine(o.modulePath, p.serviceName)) in calls
            && StartService !in calls && DeleteService !in calls
            && OpenWindowStation(HardenedWindowStation) !in calls
            && (forall c :: c in calls ==> !c.ConnectToServer? && !c.CallInvokeRunAsService?)
  {
  }

  /** Once the service is created, the launcher connects once per attempt of
      the retry loop, only to the service's own port, and invokes the service
      exactly when a connect succeeded. */
  lemma LauncherConnectsToService(p: RunAsParameters, o: LauncherOracle)
    requires o.openScManagerError.None? && o.createServiceError.None?
    ensures var calls := ExecuteRunAsCommand(p, o).calls;
            var port := NamedPort(ServicePortName(p.serviceName));
            && CreateService(p.serviceName, ServiceCommandLine(o.modulePath, p.serviceName)) in calls
            && Count(calls, ConnectToServer(port)) == Retry(o.connect).calls
            && ConnectsOnlyTo(calls, port)
            && (CallInvokeRunAsService(p) in calls <==> NtSuccess(Retry(o.connect).status))
  {
    var retry := Retry(o.connect);
    var port := NamedPort(ServicePortName(p.serviceName));
    assert ExecuteRunAsCommand(p, o).calls == LaunchTrace(p, o);
    assert LaunchPrefix(p, o)[1] == CreateService(p.serviceName, ServiceCommandLine(o.modulePath, p.serviceName));
    LaunchPrefixQuiet(p, o);
    LauncherConnects(LaunchPrefix(p, o), port, retry, LaunchSuffix(p, retry), CallInvokeRunAsService(p));
  }

  /** The calls that create the service, then close the service manager. */
  function LaunchCreate(p: RunAsParameters, o: LauncherOracle): seq<OsCall> {
    [OpenScManager, CreateService(p.serviceName, ServiceCommandLine(o.modulePath, p.serviceName)), CloseServiceHandle]
  }

  /** The calls up to the delete of the service: create it, harden, start it
      and delete it at once. */
  function LaunchPrefix(p: RunAsParameters, o: LauncherOracle): seq<OsCall> {
    LaunchCreate(p, o) + SetDesktopWinStaAccess(o.hardening) + [StartService, DeleteService]
  }

  /** Nothing before the connect loop connects or invokes, and the loop
      follows the delete. */
  lemma LaunchPrefixQuiet(p: RunAsParameters, o: LauncherOracle)
    ensures |LaunchPrefix(p, o)| > 0 && LaunchPrefix(p, o)[|LaunchPrefix(p, o)| - 1] == DeleteService
    ensures forall c :: c in LaunchPrefix(p, o) ==> !c.ConnectToServer? && !c.CallInvokeRunAsService?
  {
    var hardening := SetDesktopWinStaAccess(o.hardening);
    assert forall c :: c in hardening ==> IsHardeningCall(c);
    assert LaunchPrefix(p, o) == LaunchCreate(p, o) + hardening + [StartService, DeleteService];
  }

  /** The calls after the connect loop: the invoke and disconnect when it
      connected, then closing the service's handle. */
  function LaunchSuffix(p: RunAsParameters, retry: RetryOutcome): seq<OsCall> {
    if NtSuccess(retry.status) then [CallInvokeRunAsService(p), DisconnectFromServer, CloseServiceHandle]
    else [CloseServiceHandle]
  }

  /** The whole trace once the service has been created. */
  function LaunchTrace(p: RunAsParameters, o: LauncherOracle): seq<OsCall> {
    var retry := Retry(o.connect);
    LaunchPrefix(p, o) + RetryCalls(NamedPort(ServicePortName(p.serviceName)), retry) + LaunchSuffix(p, retry)
  }

  /** The connect facts of the launcher's trace: one connect per attempt of
      the retry loop, all to the service's port, and none outside it; an
      invoke can only come after the loop. */
  lemma LauncherConnects(before: seq<OsCall>, port: Port, retry: RetryOutcome, tail: seq<OsCall>, invoke: OsCall)
    requires 1 <= retry.calls
    requires forall c :: c in before ==> !c.ConnectToServer? && !c.CallInvokeRunAsService?
    requires forall c :: c in tail ==> !c.ConnectToServer?
    requires invoke.CallInvokeRunAsService?
    ensures invoke in before + RetryCalls(port, retry) + tail <==> invoke in tail
    ensures Count(before + RetryCalls(port, retry) + tail, ConnectToServer(port)) == retry.calls
    ensures ConnectsOnlyTo(before + RetryCalls(port, retry) + tail, port)
  {
    var c := ConnectToServer(port);
    var retryCalls := RetryCalls(port, retry);
    RetryCallsCount(port, retry);
    CountAbsent(before, c);
    CountAbsent(tail, c);
    CountAppend(before, retryCalls, c);
    CountAppend(before + retryCalls, tail, c);
    assert ConnectsOnlyTo(before, port) by {
      forall i | 0 <= i < |before|
        ensures !before[i].ConnectToServer?
      {
        assert before[i] in before;
      }
    }
    assert ConnectsOnlyTo(tail, port) by {
      forall i | 0 <= i < |tail|
        ensures !tail[i].ConnectToServer?
      {
        assert tail[i] in tail;
      }
    }
    assert ConnectsOnlyTo(retryCalls, port) by {
      forall i | 0 <= i < |retryCalls|
        ensures retryCalls[i] == c || retryCalls[i] == DelayExecution
      {
        assert retryCalls[i] in retryCalls;
      }
    }
    ConnectsOnlyToAppend(before, retryCalls, port);
    ConnectsOnlyToAppend(before + retryCalls, tail, port);
  }

  /** On the path where the service is created, the hardening, the start and
      the delete each happen exactly once, in that order. */
  lemma {:induction false} LauncherOrdering(p: RunAsParameters, o: LauncherOracle)
    requires o.openScManagerError.None? && o.createServiceError.None?
    ensures OnceEachInOrder(ExecuteRunAsCommand(p, o).calls, OpenWindowStation(HardenedWindowStation), StartService, DeleteService)
  {
    assert ExecuteRunAsCommand(p, o).calls == LaunchTrace(p, o);
    var pre, mid, post := LauncherShape(p, o);
    ThreeOnce(pre, OpenWindowStation(HardenedWindowStation), mid, StartService, DeleteService, post);
  }

  /** On the path where the service is created, the steps before the connect
      loop run in the source's order: open the service manager, create the
      service, close the manager, harden, start the service, delete it. */
  lemma LauncherCreatesBeforeHardening(p: RunAsParameters, o: LauncherOracle)
    requires o.openScManagerError.None? && o.createServiceError.None?
    ensures var calls := ExecuteRunAsCommand(p, o).calls;
            var create := CreateService(p.serviceName, ServiceCommandLine(o.modulePath, p.serviceName));
            && InOrder(calls, OpenScManager, create)
            && InOrder(calls, create, CloseServiceHandle)
            && InOrder(calls, CloseServiceHandle, OpenWindowStation(HardenedWindowStation))
            && InOrder(calls, OpenWindowStation(HardenedWindowStation), StartService)
            && InOrder(calls, StartService, DeleteService)
  {
    assert ExecuteRunAsCommand(p, o).calls == LaunchTrace(p, o);
    LaunchTraceOpening(p, o);
    FirstFourInOrder(LaunchTrace(p, o), OpenScManager, CreateService(p.serviceName, ServiceCommandLine(o.modulePath, p.serviceName)),
                     CloseServiceHandle, OpenWindowStation(HardenedWindowStation));
    LauncherOrdering(p, o);
  }

  /** The first four calls once the service is created. */
  lemma LaunchTraceOpening(p: RunAsParameters, o: LauncherOracle)
    ensures |LaunchTrace(p, o)| >= 4
    ensures LaunchTrace(p, o)[..4] ==
              [OpenScManager, CreateService(p.serviceName, ServiceCommandLine(o.modulePath, p.serviceName)),
               CloseServiceHandle, OpenWindowStation(HardenedWindowStation)]
  {
    var hardening := SetDesktopWinStaAccess(o.hardening);
    var retry := Retry(o.connect);
    var rest := [StartService, DeleteService] + RetryCalls(NamedPort(ServicePortName(p.serviceName)), retry) + LaunchSuffix(p, retry);
    assert LaunchTrace(p, o) == LaunchCreate(p, o) + (hardening + rest);
  }

  /** On the path where the service is created, every connect comes after
      the delete, and the close of the service's handle ends the trace. */
  lemma LauncherConnectsAfterDelete(p: RunAsParameters, o: LauncherOracle)
    requires o.openScManagerError.None? && o.createServiceError.None?
    ensures var calls := ExecuteRunAsCommand(p, o).calls;
            && DeleteService in calls
            && (forall i :: 0 <= i < |calls| && calls[i].ConnectToServer? ==> IndexOf(calls, DeleteService) < i)
            && calls[|calls| - 1] == CloseServiceHandle
  {
    var retry := Retry(o.connect);
    var post := LaunchSuffix(p, retry);
    assert ExecuteRunAsCommand(p, o).calls == LaunchPrefix(p, o) + RetryCalls(NamedPort(ServicePortName(p.serviceName)), retry) + post;
    LaunchPrefixQuiet(p, o);
    LoopBetween(LaunchPrefix(p, o), RetryCalls(NamedPort(ServicePortName(p.serviceName)), retry), post, DeleteService);
  }

  /** When the service is invoked, that happens after every connect, and
      only the disconnect and the close of the service's handle follow. */
  lemma LauncherInvokesLast(p: RunAsParameters, o: LauncherOracle)
    requires o.openScManagerError.None? && o.createServiceError.None?
    ensures var calls := ExecuteRunAsCommand(p, o).calls;
            var invoke := CallInvokeRunAsService(p);
            invoke in calls ==>
              && (forall i :: 0 <= i < |calls| && calls[i].ConnectToServer? ==> i < IndexOf(calls, invoke))
              && |calls| >= 3
              && calls[|calls| - 3..] == [invoke, DisconnectFromServer, CloseServiceHandle]
  {
    var retry := Retry(o.connect);
    var retryCalls := RetryCalls(NamedPort(ServicePortName(p.serviceName)), retry);
    assert ExecuteRunAsCommand(p, o).calls == LaunchTrace(p, o);
    RetryCallsCount(NamedPort(ServicePortName(p.serviceName)), retry);
    assert forall c :: c in retryCalls ==> !c.CallInvokeRunAsService?;
    LaunchPrefixQuiet(p, o);
    InvokeAfterLoop(LaunchPrefix(p, o), retryCalls, LaunchSuffix(p, retry), CallInvokeRunAsService(p));
  }

  /** The launcher's trace around the first hardening call, the start and
      the delete, with the parts in between free of all three. */
  lemma LauncherShape(p: RunAsParameters, o: LauncherOracle) returns (pre: seq<OsCall>, mid: seq<OsCall>, post: seq<OsCall>)
    ensures LaunchTrace(p, o) == pre + [OpenWindowStation(HardenedWindowStation)] + mid + [StartService] + [DeleteService] + post
    ensures OpenWindowStation(HardenedWindowStation) !in pre && StartService !in pre && DeleteService !in pre
    ensures OpenWindowStation(HardenedWindowStation) !in mid && StartService !in mid && DeleteService !in mid
    ensures OpenWindowStation(HardenedWindowStation) !in post && StartService !in post && DeleteService !in post
  {
    pre := LaunchCreate(p, o);
    mid := HardeningAfterOpen(o.hardening);
    var retry := Retry(o.connect);
    var retryCalls := RetryCalls(NamedPort(ServicePortName(p.serviceName)), retry);
    var tail := LaunchSuffix(p, retry);
    post := retryCalls + tail;
    AfterDeleteCalls(NamedPort(ServicePortName(p.serviceName)), p, retry);
    assert [StartService, DeleteService] == [StartService] + [DeleteService];
    Regroup(pre, [OpenWindowStation(HardenedWindowStation)], mid, [StartService], [DeleteService], retryCalls, tail);
  }

  /** The hardening calls after its opening OpenWindowStation. */
  lemma HardeningAfterOpen(o: HardenOracle) returns (mid: seq<OsCall>)
    ensures SetDesktopWinStaAccess(o) == [OpenWindowStation(HardenedWindowStation)] + mid
    ensures OpenWindowStation(HardenedWindowStation) !in mid && StartService !in mid && DeleteService !in mid
  {
    mid := HardeningRest(o);
  }

  /** After the delete come only connects, delays, the invoke, the
      disconnect and closing handles. */
  lemma AfterDeleteCalls(port: Port, p: RunAsParameters, retry: RetryOutcome)
    requires 1 <= retry.calls
    ensures forall c :: c in RetryCalls(port, retry) + LaunchSuffix(p, retry) ==>
              c.ConnectToServer? || c.DelayExecution? || c.CallInvokeRunAsService? || c.DisconnectFromServer? || c.CloseServiceHandle?
  {
    RetryCallsCount(port, retry);
  }

  /** The arguments of PhExecuteRunAsCommand2, less the parent window. */
  datatype RunAsRequest = RunAsRequest(
    fileName: string,
    commandLine: string,
    userName: Option<string>,
    password: Option<string>,
    logonType: Ulong,
    processIdWithToken: nat,
    sessionId: Ulong,
    desktopName: string,
    useLinkedToken: bool)

  /** The parameter block filled from a request: zeroed first, so the current
      directory stays NULL; the token-source handle is truncated to 32 bits. */
  function ServiceParameters(req: RunAsRequest, serviceName: string): RunAsParameters {
    RunAsParameters(
      req.processIdWithToken % Two32, req.userName, req.password, req.logonType, req.sessionId,
      None, req.commandLine, req.fileName, req.desktopName, serviceName, req.useLinkedToken)
  }

  /** RunAsOldServiceName (empty until a name has been generated) and the
      phsvc reference count. */
  datatype RunAsState = RunAsState(oldServiceName: string, phsvc: PhSvcState)

  /** The environment's answers to one PhExecuteRunAsCommand2. */
  datatype RunAsOracle = RunAsOracle(
    cachedConnect: NtStatus,
    cachedInvoke: NtStatus,
    randomSuffix: RandomSuffix,
    elevated: bool,
    launcher: LauncherOracle,
    phsvcConnect: ConnectOracle,
    phsvcExecute: NtStatus)

  datatype RunAsResult = RunAsResult(status: NtStatus, state: RunAsState, calls: seq<OsCall>)

  /** A fresh service name: the thirteen-character prefix, then the
      generated characters from offset 13, within the 32-character buffer. */
  function FreshServiceName(suffix: RandomSuffix): (name: string)
    ensures |ServiceNamePrefix| == 13
    ensures |name| == 13 + |suffix|
    ensures name[..13] == ServiceNamePrefix && name[13..] == suffix
    ensures 0 < |name| < ServiceNameBufferLength
  {
    ServiceNamePrefix + suffix
  }

  /** The cached service is used when a name is cached and its port answers. */
  predicate ReusesCachedService(s: RunAsState, o: RunAsOracle) {
    |s.oldServiceName| > 0 && NtSuccess(o.cachedConnect)
  }

  /** The connect to the cached service's port, made whenever a name is
      cached, before any fresh service is launched. */
  function CachedTry(s: RunAsState): seq<OsCall> {
    if |s.oldServiceName| > 0 then [ConnectToServer(NamedPort(ServicePortName(s.oldServiceName)))] else []
  }

  /** PhExecuteRunAsCommand2. */
  function ExecuteRunAsCommand2(s: RunAsState, req: RunAsRequest, o: RunAsOracle): (r: RunAsResult)
    ensures ReusesCachedService(s, o) ==>
              && r.status == o.cachedInvoke
              && r.state == s
              && r.calls == [ConnectToServer(NamedPort(ServicePortName(s.oldServiceName))),
                             CallInvokeRunAsService(ServiceParameters(req, s.oldServiceName)),
                             DisconnectFromServer]
    ensures |s.oldServiceName| > 0 ==> |r.calls| > 0 && r.calls[0] == ConnectToServer(NamedPort(ServicePortName(s.oldServiceName)))
    ensures !ReusesCachedService(s, o) ==> r.state.oldServiceName == FreshServiceName(o.randomSuffix)
    ensures |r.state.oldServiceName| > 0
    ensures r.state.phsvc == s.phsvc
    ensures !ReusesCachedService(s, o) && o.elevated ==>
              r.status == ExecuteRunAsCommand(ServiceParameters(req, FreshServiceName(o.randomSuffix)), o.launcher).status
    ensures !ReusesCachedService(s, o) && o.elevated ==>
              r.calls == CachedTry(s) + ExecuteRunAsCommand(ServiceParameters(req, FreshServiceName(o.randomSuffix)), o.launcher).calls
    ensures !ReusesCachedService(s, o) && !o.elevated ==>
              var c := UiConnect(s.phsvc, false, o.phsvcConnect);
              r.calls == CachedTry(s) + c.calls +
                         (if c.started then [CallExecuteRunAsCommand(ServiceParameters(req, FreshServiceName(o.randomSuffix)))] + UiDisconnect(c.state).1
                          else [])
    ensures !ReusesCachedService(s, o) && !o.elevated && UiConnect(s.phsvc, false, o.phsvcConnect).started ==>
              && r.status == o.phsvcExecute
              && CallExecuteRunAsCommand(ServiceParameters(req, FreshServiceName(o.randomSuffix))) in r.calls
              && (DisconnectFromServer in r.calls <==> s.phsvc.referenceCount == 0)
    ensures !ReusesCachedService(s, o) && !o.elevated && !UiConnect(s.phsvc, false, o.phsvcConnect).started ==>
              && r.status == StatusCancelled
              && forall c :: c in r.calls ==> !c.CallExecuteRunAsCommand? && !c.CallInvokeRunAsService?
  {
    var cachedPort := ConnectToServer(NamedPort(ServicePortName(s.oldServiceName)));
    if ReusesCachedService(s, o) then
      RunAsResult(o.cachedInvoke, s,
                  [cachedPort, CallInvokeRunAsService(ServiceParameters(req, s.oldServiceName)), DisconnectFromServer])
    else
      var tried := CachedTry(s);
      var name := FreshServiceName(o.randomSuffix);
      var p := ServiceParameters(req, name);
      var cached := s.(oldServiceName := name);
      if o.elevated then
        var launched := ExecuteRunAsCommand(p, o.launcher);
        RunAsResult(launched.status, cached, tried + launched.calls)
      else
        var connected := UiConnect(s.phsvc, false, o.phsvcConnect);
        if connected.started then
          var disconnected := UiDisconnect(connected.state);
          RunAsResult(o.phsvcExecute, cached.(phsvc := disconnected.0),
                      tried + connected.calls + [CallExecuteRunAsCommand(p)] + disconnected.1)
        else
          RunAsResult(StatusCancelled, cached.(phsvc := connected.state), tried + connected.calls)
  }

  /** After any call a name is cached, so the next call tries that service
      first; a name is only replaced when its service did not answer. */
  lemma CacheIsSticky(s: RunAsState, req: RunAsRequest, o: RunAsOracle, req2: RunAsRequest, o2: RunAsOracle)
    ensures var r := ExecuteRunAsCommand2(s, req, o);
            var r2 := ExecuteRunAsCommand2(r.state, req2, o2);
            && r2.calls[0] == ConnectToServer(NamedPort(ServicePortName(r.state.oldServiceName)))
            && (NtSuccess(o2.cachedConnect) ==> r2.state.oldServiceName == r.state.oldServiceName)
  {
  }

  /** The launcher makes none of the keyboard hook's own calls. */
  lemma LauncherMakesNoHookCall(p: RunAsParameters, o: LauncherOracle)
    ensures forall c :: c in ExecuteRunAsCommand(p, o).calls ==> !IsHookCall(c)
  {
    if o.openScManagerError.None? && o.createServiceError.None? {
      assert ExecuteRunAsCommand(p, o).calls == LaunchTrace(p, o);
      LaunchTraceMakesNoHookCall(p, o);
    }
  }

  lemma LaunchTraceMakesNoHookCall(p: RunAsParameters, o: LauncherOracle)
    ensures forall c :: c in LaunchTrace(p, o) ==> !IsHookCall(c)
  {
    var retry := Retry(o.connect);
    var retryCalls := RetryCalls(NamedPort(ServicePortName(p.serviceName)), retry);
    assert forall c :: c in retryCalls ==> !IsHookCall(c) by {
      RetryCallsCount(NamedPort(ServicePortName(p.serviceName)), retry);
    }
    assert forall c :: c in LaunchPrefix(p, o) ==> !IsHookCall(c) by {
      HardeningMakesNoHookCall(o.hardening);
    }
    assert LaunchTrace(p, o) == LaunchPrefix(p, o) + retryCalls + LaunchSuffix(p, retry);
  }

  lemma HardeningMakesNoHookCall(o: HardenOracle)
    ensures forall c :: c in SetDesktopWinStaAccess(o) ==> !IsHookCall(c)
  {
  }

  /** Run-as makes none of the keyboard hook's own calls. */
  lemma RunAsMakesNoHookCall(s: RunAsState, req: RunAsRequest, o: RunAsOracle)
    ensures forall c :: c in ExecuteRunAsCommand2(s, req, o).calls ==> !IsHookCall(c)
  {
    if !ReusesCachedService(s, o) {
      if o.elevated {
        ElevatedMakesNoHookCall(s, req, o);
      } else {
        PhSvcPathMakesNoHookCall(s, req, o);
      }
    }
  }

  /** The elevated path: the cached-port connect and the launcher's calls. */
  lemma ElevatedMakesNoHookCall(s: RunAsState, req: RunAsRequest, o: RunAsOracle)
    requires !ReusesCachedService(s, o) && o.elevated
    ensures forall c :: c in ExecuteRunAsCommand2(s, req, o).calls ==> !IsHookCall(c)
  {
    var p := ServiceParameters(req, FreshServiceName(o.randomSuffix));
    LauncherMakesNoHookCall(p, o.launcher);
    assert ExecuteRunAsCommand2(s, req, o).calls == CachedTry(s) + ExecuteRunAsCommand(p, o.launcher).calls;
  }

  /** The phsvc path: the cached-port connect, phsvc's connect calls, the
      execute request and the disconnect. */
  lemma PhSvcPathMakesNoHookCall(s: RunAsState, req: RunAsRequest, o: RunAsOracle)
    requires !ReusesCachedService(s, o) && !o.elevated
    ensures forall c :: c in ExecuteRunAsCommand2(s, req, o).calls ==> !IsHookCall(c)
  {
    PhSvcTraceMakesNoHookCall(s, ServiceParameters(req, FreshServiceName(o.randomSuffix)), o.phsvcConnect);
  }

  lemma PhSvcTraceMakesNoHookCall(s: RunAsState, p: RunAsParameters, connect: ConnectOracle)
    ensures var c := UiConnect(s.phsvc, false, connect);
            var rest := if c.started then [CallExecuteRunAsCommand(p)] + UiDisconnect(c.state).1 else [];
            forall x :: x in CachedTry(s) + c.calls + rest ==> !IsHookCall(x)
  {
    var c := UiConnect(s.phsvc, false, connect);
    var rest := if c.started then [CallExecuteRunAsCommand(p)] + UiDisconnect(c.state).1 else [];
    assert forall x :: x in c.calls ==> !IsHookCall(x);
    assert forall x :: x in rest ==> !IsHookCall(x);
    NoHookCallIn(CachedTry(s), c.calls, rest);
  }

  /** Three parts free of hook calls join into a trace free of them. */
  lemma NoHookCallIn(a: seq<OsCall>, b: seq<OsCall>, c: seq<OsCall>)
    requires forall x :: x in a ==> !IsHookCall(x)
    requires forall x :: x in b ==> !IsHookCall(x)
    requires forall x :: x in c ==> !IsHookCall(x)
    ensures forall x :: x in a + b + c ==> !IsHookCall(x)
  {
  }
}

=== FILE: runas_service.dfy ===
/** The service side of run-as (phf/runas.c:397-475): a run-as request is
    turned into the arguments of the process-creation primitive, which the
    service calls once and whose status it returns unchanged. */
module RunAsService {
  import opened Win
  import opened PhStrings

  /** PH_RUNAS_SERVICE_PARAMETERS. `processId` is the token-source process
      (0 for none); `None` stands for a NULL string pointer. */
  datatype RunAsParameters = RunAsParameters(
    processId: Ulong,
    userName: Option<string>,
    password: Option<string>,
    logonType: Ulong,
    sessionId: Ulong,
    currentDirectory: Option<string>,
    commandLine: string,
    fileName: string,
    desktopName: string,
    serviceName: string,
    useLinkedToken: bool)

  /** PhpSplitUserName: `domain\user` gives both parts, split at the first
      backslash; a name without a backslash is a user with no domain. */
  function SplitUserName(userName: string): (r: (Option<string>, string))
    ensures r.0.Some? <==> '\\' in userName
    ensures r.0.Some? ==> '\\' !in r.0.value && r.0.value + "\\" + r.1 == userName
    ensures r.0.None? ==> r.1 == userName
  {
    match SplitAtChar(userName, '\\')
    case Some(parts) => (Some(parts.0), parts.1)
    case None => (None, userName)
  }

  /** The inverse of SplitUserName: a user qualified by its domain, if any. */
  function JoinUserName(domain: Option<string>, user: string): string {
    match domain
    case None => user
    case Some(d) => d + "\\" + user
  }

  /** Splitting a qualified name recovers the domain and the user exactly,
      whatever backslashes the user part holds. */
  lemma {:induction false} SplitQualifiedUserName(domain: string, user: string)
    requires '\\' !in domain
    ensures SplitUserName(domain + "\\" + user) == (Some(domain), user)
  {
    SplitAtCharOfJoin(domain, '\\', user);
  }

  /** The PH_CREATE_PROCESS_* flags the service can pass. */
  datatype CreateFlag = SetSessionId | UseProcessToken | UseLinkedToken

  /** PH_CREATE_PROCESS_AS_USER_INFO. */
  datatype CreateProcessInfo = CreateProcessInfo(
    applicationName: string,
    commandLine: string,
    currentDirectory: Option<string>,
    domainName: Option<string>,
    userName: Option<string>,
    password: Option<string>,
    logonType: Ulong,
    sessionId: Ulong,
    desktopName: string,
    processIdWithToken: Ulong)

  /** One call of PhCreateProcessAsUser: its information block and flags. */
  datatype CreateProcessCall = CreateProcessCall(info: CreateProcessInfo, flags: set<CreateFlag>)

  /** The process-creation call PhInvokeRunAsService builds from a request. */
  function CreateProcessRequest(p: RunAsParameters): (c: CreateProcessCall)
    ensures SetSessionId in c.flags
    ensures UseProcessToken in c.flags <==> p.processId != 0
    ensures UseLinkedToken in c.flags <==> p.useLinkedToken
    ensures c.info.processIdWithToken == p.processId
    ensures c.info.userName.Some? <==> p.userName.Some?
    ensures p.userName.None? ==> c.info.domainName.None?
    ensures p.userName.Some? ==> JoinUserName(c.info.domainName, c.info.userName.value) == p.userName.value
    ensures c.info.domainName.Some? ==> '\\' !in c.info.domainName.value
    ensures c.info.domainName.Some? <==> p.userName.Some? && '\\' in p.userName.value
    ensures && c.info.applicationName == p.fileName
            && c.info.commandLine == p.commandLine
            && c.info.currentDirectory == p.currentDirectory
            && c.info.password == p.password
            && c.info.logonType == p.logonType
            && c.info.sessionId == p.sessionId
            && c.info.desktopName == p.desktopName
  {
    var names := if p.userName.Some? then SplitUserName(p.userName.value) else (None, "");
    var info := CreateProcessInfo(
      p.fileName, p.commandLine, p.currentDirectory,
      names.0, if p.userName.Some? then Some(names.1) else None,
      p.password, p.logonType, p.sessionId, p.desktopName,
      if p.processId != 0 then p.processId else 0);
    var flags := {SetSessionId}
      + (if p.processId != 0 then {UseProcessToken} else {})
      + (if p.useLinkedToken then {UseLinkedToken} else {});
    CreateProcessCall(info, flags)
  }

  /** A request for `domain\user` with no token-source process and no linked
      token becomes a plain logon as that user in the requested session. */
  lemma LogonRequest(p: RunAsParameters, domain: string, user: string)
    requires '\\' !in domain
    requires p.processId == 0 && !p.useLinkedToken && p.userName == Some(domain + "\\" + user)
    ensures CreateProcessRequest(p).flags == {SetSessionId}
    ensures CreateProcessRequest(p).info == CreateProcessInfo(
              p.fileName, p.commandLine, p.currentDirectory, Some(domain), Some(user),
              p.password, p.logonType, p.sessionId, p.desktopName, 0)
  {
    var call := CreateProcessRequest(p);
    assert UseProcessToken !in call.flags && UseLinkedToken !in call.flags;
    SplitQualifiedUserName(domain, user);
  }

  /** PhInvokeRunAsService: exactly one process-creation call, whose status is
      returned verbatim. */
  function InvokeRunAsService(p: RunAsParameters, createProcessAsUser: CreateProcessCall -> NtStatus): (r: (CreateProcessCall, NtStatus))
    ensures r.0 == CreateProcessRequest(p)
    ensures r.1 == createProcessAsUser(r.0)
  {
    var call := CreateProcessRequest(p);
    (call, createProcessAsUser(call))
  }
}

=== FILE: win.dfy ===
/** Windows and NT vocabulary shared by the model: optional values, the
    32-bit integer types, NTSTATUS and Win32 error codes, and the security
    identifiers and access-allowed entries of a discretionary ACL. */
module Win {

  /** A possibly absent value; `None` stands for a NULL pointer. */
  datatype Option<+T> = None | Some(value: T)

  const Two32: int := 0x1_0000_0000

  /** A 32-bit unsigned value (ULONG, DWORD). */
  type Ulong = u: int | 0 <= u < 0x1_0000_0000

  /** An NTSTATUS: a signed 32-bit value. */
  type NtStatus = s: int | -0x8000_0000 <= s < 0x8000_0000

  /** A Win32 error code as GetLastError reports it. */
  type Win32Error = Ulong

  /** NT_SUCCESS: success and informational codes are the non-negative ones. */
  predicate NtSuccess(status: NtStatus) {
    status >= 0
  }

  /** The NTSTATUS whose 32-bit pattern is `u` (a C cast from ULONG). */
  function AsNtStatus(u: Ulong): (s: NtStatus)
    ensures s % Two32 == u
    ensures s >= 0 <==> u < 0x8000_0000
  {
    if u < 0x8000_0000 then u else u - Two32
  }

  const StatusSuccess: NtStatus := 0

  /** STATUS_CANCELLED, 0xC0000120. */
  const StatusCancelled: NtStatus := AsNtStatus(0xC000_0120)

  /** ERROR_FILE_NOT_FOUND. */
  const ErrorFileNotFound: Win32Error := 2

  /** FACILITY_NTWIN32 and ERROR_SEVERITY_ERROR, the two parts NTSTATUS_FROM_WIN32 adds. */
  const FacilityNtWin32: nat := 7
  const ErrorSeverityError: nat := 0xC000_0000

  /** NTSTATUS_FROM_WIN32: a code that is already zero or negative when read as
      an NTSTATUS passes through; any other keeps its low 16 bits under the
      Win32 facility (7) with error severity, the pattern 0xC007xxxx. A
      Win32 failure therefore never reads as success; an ordinary Win32
      error never reads as a cancellation, but a code with the top bit set
      is passed on as it is, STATUS_CANCELLED's own bits included. */
  function StatusFromWin32(error: Win32Error): (status: NtStatus)
    ensures NtSuccess(status) <==> error == 0
    ensures error == 0 ==> status == StatusSuccess
    ensures 0 < error < 0x8000_0000 ==> status % Two32 == 0xC007_0000 + error % 0x1_0000
    ensures 0 < error < 0x8000_0000 ==> status % 0x1_0000 == error % 0x1_0000 && status != StatusCancelled
    ensures 0x8000_0000 <= error ==> status % Two32 == error
  {
    if AsNtStatus(error) <= 0 then AsNtStatus(error)
    else AsNtStatus(ErrorSeverityError + FacilityNtWin32 * 0x1_0000 + error % 0x1_0000)
  }

  /** The two principals the desktop hardening grants access to:
      S-1-1-0 (Everyone) and S-1-15-2-1 (ALL APPLICATION PACKAGES). */
  datatype Sid = Everyone | AllAppPackages

  function SubAuthorityCount(sid: Sid): nat {
    match sid
    case Everyone => 1
    case AllAppPackages => 2
  }

  /** RtlLengthSid: an eight-byte header and four bytes per sub-authority. */
  function SidLength(sid: Sid): nat {
    8 + 4 * SubAuthorityCount(sid)
  }

  /** GENERIC_ALL. */
  const GenericAll: Ulong := 0x1000_0000

  /** An ACCESS_ALLOWED_ACE: an access mask granted to a principal. */
  datatype Ace = AccessAllowed(mask: Ulong, sid: Sid)
}
